=== FILE: README.md ===
# NIME keyword screening, modelled in Dafny

This project models the three decision layers of the NIME keyword-screening
pipeline as pure functions over strings and sequences, and proves properties of
them.

- **Combined filter** (`filter_renamed_pdfs_combined.py`).
  - It cuts the References/Citations section off a paper's text.
  - It searches the rest, case-insensitively, for the fixed keyword list. "organ" only counts as the whole word "organ" or "organs".
  - A paper is kept only when an instrument keyword is found. "interface" and "layout" count only next to an instrument.
  - A kept paper goes to the folder named after its sorted keywords. Whether its title, abstract or keywords cell also holds a keyword decides the `Metadata_Match` or `No_Metadata_Match` bucket.
- **Renaming step** (`rename_pdfs_by_nime_id.py`).
  - Two lookups are built from the paper table: URL base name to ID, and the set of IDs.
  - Each PDF is matched by its file name first, then by its stem.
  - A matched PDF is named "{ID}.pdf", or "{ID}_{n}.pdf" with the first free `n`. An unmatched one keeps its name.
- **KWIC screening** (`kwic_screening.py`).
  - Each whole-word keyword occurrence (with its allowed suffixes) gives a snippet with up to 80 characters of flattened context on each side.
  - Snippets become detail rows tagged with the year from the file name, and the rows are sorted.
  - Each keyword gets an integer document count for IDF.
  - Each paper gets a preview of its first eight distinct snippets.

Modules:

- `Strings`: ASCII case mapping, `str.strip`, `str.join`, substring search, code-point order, decimal rendering.
- `Seqs`: order-preserving de-duplication, filtering, last-match search.
- `Sorting`: Python's stable `sort(key=...)`, and `sorted` on strings.
- `Regex`: the two regular-expression shapes the scripts use, under Python `re` semantics over ASCII (leftmost, non-overlapping `finditer`; alternatives tried in order).
- `References`, `Keywords`, `Metadata`, `Filter`: the combined filter.
- `Paths`: `os.path.basename` of a stripped URL and `Path.stem`, shared by the renaming and KWIC steps.
- `Rename`: the renaming step.
- `Kwic`: the KWIC screening.

Two behaviours of the code are worth knowing before reading the contracts:

- **IDF weight.** The code computes `log10(total / docs)` for a keyword found in some paper, so the weight is 0 when every paper counted mentions the keyword, as well as when none does. `Kwic.IdfZeroIff` states this. The total counts only papers with at least one snippet, since it is taken from the detail rows.
- **"Last" header.** The docstring of `remove_references_section` speaks of the last header occurrence. The code takes the greatest start among the `re.finditer` matches. A header line whose leading line feed was consumed by the previous match is not reported, so "x\nReferences\nReferences\n" is cut at 1, not at 12. `References.SkippedHeaderExample` proves this.
- **Player forms.** The KWIC pattern puts the suffixes `s`, `ist`, `ists` after the whole keyword, so "keyboardist" and "organists" match but "pianist" does not: it does not contain "piano". `Kwic.KeyboardistMatched` and `Kwic.PianistNotMatched` state both cases.
- **Preview order.** A paper's preview takes the first eight distinct snippets in the order of its rows, and the rows are sorted by year, PDF name and keyword. So the preview favours the alphabetically first keywords, not the snippets earliest in the paper.

## Model

| member | source | states |
|---|---|---|
| Regex.FindIter | filter_renamed_pdfs_combined.py:79 | every reported span is a match of the pattern at its start; spans are ordered and do not overlap |
| Regex.Scan | filter_renamed_pdfs_combined.py:79 | for any matcher, the scan reports only matches, each at its start, in increasing order and without overlap |
| Regex.ScanComplete | filter_renamed_pdfs_combined.py:79-81 | for any matcher, every position where it matches lies inside a reported span |
| Regex.FindIterComplete | filter_renamed_pdfs_combined.py:79-81 | every position where the pattern matches lies inside a reported span, so each span starts at the leftmost match not inside an earlier one |
| Regex.Search | filter_renamed_pdfs_combined.py:100 | `re.search` succeeds exactly when the pattern matches at some position |
| Regex.HeaderMatchSound | filter_renamed_pdfs_combined.py:72-81 | a header match covers a line feed, whitespace, the word, whitespace and a line feed, and ends at the last line feed of the whitespace run after the word, so the next search resumes just after it |
| Regex.HeaderMatchShape | filter_renamed_pdfs_combined.py:72-75 | the header pattern matches at i iff a line feed, whitespace, the word, whitespace and a line feed follow i |
| Regex.WholeWordMatchShape | kwic_screening.py:28-31 | the whole-word pattern matches iff the word plus one alternative stands at a word boundary on both sides; the match takes the first alternative that fits |
| References.LastStart | filter_renamed_pdfs_combined.py:77-81 | the loop's result bounds every start from above and is either the initial -1 or one of the starts |
| References.CutPoint | filter_renamed_pdfs_combined.py:61-83 | there is a cut iff some reported header starts past 0; a cut is one of the reported starts, the greatest of them, and lies inside the text on a header line |
| References.RemoveReferences | filter_renamed_pdfs_combined.py:54-87 | the result is a prefix of the text; it is the whole text iff no header is reported past position 0; a removed part begins at the greatest reported header start, on a References/Citations header line compared case-insensitively |
| References.SkippedHeaderExample | filter_renamed_pdfs_combined.py:72-83 | in "x\nReferences\nReferences\n" the header line at 12 is not reported, because the match at 1 consumed its line feed, and the text is cut at 1 |
| References.FoundHeaderIsLine | filter_renamed_pdfs_combined.py:72-81 | every start `finditer` reports for one word lies on a header line of that word |
| References.CutIsHeader | filter_renamed_pdfs_combined.py:72-81 | every reported start lies within the text on a References or Citations header line |
| Keywords.SearchKeywords | filter_renamed_pdfs_combined.py:89-107 | the flag is true iff the list is non-empty; the list has no duplicates, holds exactly the lowered keywords found, and follows the keyword-list order |
| Keywords.SearchWith | filter_renamed_pdfs_combined.py:95-107 | for any hit test, the list holds each hit keyword exactly once, in list order, and the flag says it is non-empty |
| Keywords.SearchKeywordsLowercase | filter_renamed_pdfs_combined.py:94-97 | every reported keyword is lower-case |
| Keywords.OrganWholeWord | filter_renamed_pdfs_combined.py:98-102 | "organ" is reported iff "organ" or "organs" occurs as a whole word in the lowered text |
| Keywords.OrganizationIsNotOrgan | filter_renamed_pdfs_combined.py:92-102 | the text "organization" does not report "organ" |
| Keywords.PlainKeywordSubstring | filter_renamed_pdfs_combined.py:103-106 | any other keyword is reported iff it is a substring of the lowered text |
| Sorting.SortStrings | filter_renamed_pdfs_combined.py:111 | `sorted` returns a permutation in ascending code-point order |
| Keywords.FolderNamePermutationInvariant | filter_renamed_pdfs_combined.py:109-112 | the folder name is the same for any two orderings of the same keywords |
| Keywords.FolderName | filter_renamed_pdfs_combined.py:109-112 | the folder name is the keywords in code-point order joined by "_", and every keyword of the list appears in it |
| Filter.FoundKeywordKinds | filter_renamed_pdfs_combined.py:193-195 | with the fixed keyword list, every found keyword is an instrument or a dependent keyword |
| Filter.FoundKeywordHit | filter_renamed_pdfs_combined.py:94-106 | each of the eight keywords is reported iff the lowered text holds it |
| Filter.ExtractId | filter_renamed_pdfs_combined.py:114-118 | a name ending in ".pdf" is the result plus ".pdf"; any other name is returned unchanged |
| Filter.ExtractIdRoundTrip | filter_renamed_pdfs_combined.py:114-118 | reading the ID back from "{ID}.pdf" gives the ID |
| Filter.RenamedIdReadBack | filter_renamed_pdfs_combined.py:114-118 | a file renamed "{ID}_{n}.pdf" reads back as "{ID}_{n}", not as its ID |
| Filter.BuildIdToMeta | filter_renamed_pdfs_combined.py:120-138 | an ID is a key iff it is non-empty and some row's stripped ID equals it; its fields are those of the last such row |
| Filter.Decide | filter_renamed_pdfs_combined.py:192-285 | no match iff nothing was found or only dependent keywords were, with the matching reason; a match goes to the keyword folder, under Keyboard_Interface_Related when that name holds keyboard, interface or layout; its bucket is Metadata_Match iff the paper has metadata whose text holds a keyword, with the three reasons told apart |
| Filter.ClassifyPaper | filter_renamed_pdfs_combined.py:185-285 | a paper is kept iff an instrument keyword is found in the text left after the references cut; the row lists the found keywords; a kept paper's folder is their folder name and its bucket is Metadata_Match iff it has metadata whose text holds a keyword |
| Filter.KeptIffInstrument | filter_renamed_pdfs_combined.py:192-198 | a paper is kept iff some instrument keyword is hit in the lowered, references-free text; interface and layout alone never keep it |
| Filter.MetadataOnlyChoosesBucket | filter_renamed_pdfs_combined.py:213-252 | the metadata changes neither the keep decision, nor the listed keywords, nor the keyword folder |
| Filter.KeyboardRelatedFolders | filter_renamed_pdfs_combined.py:220-225 | a folder whose keywords include keyboard, interface or layout goes under Keyboard_Interface_Related |
| Filter.Tally | filter_renamed_pdfs_combined.py:178-285 | one result row per PDF in order; the two copy counters sum to the number of PDFs, the first being the number kept; the folder set is exactly the kept papers' folders |
| Filter.RunWith | filter_renamed_pdfs_combined.py:171-185 | for any per-PDF classifier, the run stops iff there are no PDFs; otherwise it gives one row per PDF, in order, and counters summing to the number of PDFs |
| Filter.RunFilter | filter_renamed_pdfs_combined.py:166-185 | the run stops iff no PDF was collected; otherwise each PDF's row is its classification with metadata looked up by its file-name ID |
| Paths.Basename | rename_pdfs_by_nime_id.py:28-29 | the base name is a suffix of the URL with surrounding whitespace removed; it holds no "/" and is preceded by a "/" unless it is all of the stripped URL |
| Paths.LastSegment | rename_pdfs_by_nime_id.py:28-29 | the base name is a suffix of the stripped URL holding no "/", preceded by a "/" unless it is the whole URL |
| Paths.Stem | rename_pdfs_by_nime_id.py:79 | the stem is a prefix of the name; a shorter stem ends before the last dot, which is neither first nor last |
| Paths.StemOfPdf | rename_pdfs_by_nime_id.py:78-80 | the stem of "{x}.pdf" is x for non-empty x |
| Rename.BuildIds | rename_pdfs_by_nime_id.py:40-45 | the ID set holds exactly the non-empty stripped IDs |
| Rename.BuildUrlMap | rename_pdfs_by_nime_id.py:40-48 | a base name is mapped iff some row with a non-empty ID has it and it ends in ".pdf"; it maps to the last such row's ID |
| Rename.NameMap | rename_pdfs_by_nime_id.py:40-48 | for any naming of rows, a name is a key iff some row maps it, and its value is the ID of the last such row |
| Rename.BuildLookupWellFormed | rename_pdfs_by_nime_id.py:43-48 | every mapped name ends in ".pdf" and maps to a non-empty member of the ID set |
| Rename.MatchFile | rename_pdfs_by_nime_id.py:73-82 | a URL base-name match wins with method "url"; only without one is the stem tried against the IDs, with method "id_direct" |
| Rename.MatchedIdNonEmpty | rename_pdfs_by_nime_id.py:84 | with lookups built from the table, the `if matched_id:` test accepts every match |
| Rename.PubPubFileMatchesId | rename_pdfs_by_nime_id.py:78-82 | a PubPub file "{ID}.pdf" without a URL match matches its own ID directly |
| Rename.CandidateInjective | rename_pdfs_by_nime_id.py:86-92 | the names "{ID}.pdf", "{ID}_1.pdf", ... are pairwise distinct |
| Rename.ChooseDest | rename_pdfs_by_nime_id.py:86-92 | the destination is not taken and is the first candidate name that is free |
| Rename.RenameOne | rename_pdfs_by_nime_id.py:69-104 | a record exists iff the file matches; it carries the matched ID and method and the first free name |
| Rename.RenameSorted | rename_pdfs_by_nime_id.py:68-104 | over names in a given order, matched and unmatched names are split in order, every record agrees with the match, and each new name is the first free one |
| Rename.AllFirstFreeDistinct | rename_pdfs_by_nime_id.py:86-93 | names chosen first-free never repeat and never reuse a name already present |
| Rename.RenameAll | rename_pdfs_by_nime_id.py:54-104 | renamed and unmatched are the matched and unmatched names in sorted order, together all inputs; every record agrees with the match; new names are first-free, distinct and not pre-existing |
| Kwic.OccurrencesFrom | kwic_screening.py:27-33 | occurrences are genuine matches, ordered by keyword-list position then by text position, without overlap |
| Kwic.OccurrencesComplete | kwic_screening.py:33 | every match of a keyword's pattern lies inside a visited occurrence of that keyword |
| Kwic.Context | kwic_screening.py:37-38 | the context holds no newline; it is the run of the slice, newlines read as spaces, that leaves only whitespace before and after it in the slice and neither starts nor ends with whitespace |
| Kwic.ContextUnique | kwic_screening.py:37-38 | any string with that trimmed-run shape is the context, so the shape fixes it |
| Kwic.WindowStart | kwic_screening.py:34 | the window starts at most `window` before the match and is cut at 0 |
| Kwic.WindowEnd | kwic_screening.py:35 | the window ends at most `window` after the match and is cut at the text's end |
| Kwic.KeyboardistMatched | kwic_screening.py:28-29 | "keyboardist" is one whole-word match of the "keyboard" pattern, ending after "ist" |
| Kwic.PianistNotMatched | kwic_screening.py:28-29 | the "piano" pattern matches nowhere in "pianist", as its suffixes follow "piano" |
| Kwic.MatchedWordShape | kwic_screening.py:28-39 | the lowered matched word is the keyword followed by one of its suffixes or nothing |
| Kwic.SnippetOf | kwic_screening.py:34-46 | the before context is the context of `max(0, start - window)` to the start, the after context that of the end to `min(len, end + window)`; both have at most `window` characters and no newline; the word is the original-case slice at the match |
| Kwic.GetKwicSnippets | kwic_screening.py:24-47 | one snippet per occurrence, in order, with that occurrence's keyword, original-case word, and the contexts of the windows before and after it; each is bounded, newline-free and of the keyword-plus-suffix form |
| Kwic.YearOf | kwic_screening.py:65-66 | the year is "Unknown" iff `nime\d{4}_` does not occur; otherwise it is the four digits of the leftmost occurrence |
| Kwic.YearExample | kwic_screening.py:64-66 | "nime2013_Batula.pdf" has year "2013" |
| Kwic.FileRows | kwic_screening.py:62-78 | one row per snippet of the file, in snippet order, each carrying the file's PDF name and year, that snippet's before, keyword, matched word and after, and an empty decision |
| Kwic.AllRows | kwic_screening.py:57-80 | a row is a detail row iff it is a row of one of the files |
| Kwic.AllRowsSnoc | kwic_screening.py:57-80 | processing one more file appends exactly its rows, so each file's rows form one block in file order |
| Kwic.SortDetails | kwic_screening.py:83 | the sorted rows are a permutation ordered by year, PDF name and keyword |
| Kwic.SortDetailsStable | kwic_screening.py:83 | rows with equal keys keep their extraction order |
| Kwic.DocCountBound | kwic_screening.py:102-106 | a keyword's document count is at most the total paper count, and 0 iff no row has the keyword |
| Kwic.IdfWeight | kwic_screening.py:102-112 | the weight is zero iff no row has the keyword; otherwise it is `log10(total / docs)` with total the number of distinct PDF names and docs the number of those with the keyword, 0 < docs <= total |
| Kwic.IdfZeroIff | kwic_screening.py:107-112 | the weight's value is 0 iff no paper or every paper mentions the keyword |
| Kwic.SnippetText | kwic_screening.py:124 | the snippet starts and ends with "...", is at most 130 characters longer than the word, and holds " [WORD] " after the kept part of the left context |
| Kwic.PreviewSnippets | kwic_screening.py:126 | at most eight distinct snippets, all from the input, in first-occurrence order, and all of them when fewer than eight |
| Kwic.PreviewKeepsEarliest | kwic_screening.py:126 | a snippet left out first occurs after every snippet kept |
| Kwic.AggregateContext | kwic_screening.py:118-127 | the aggregated text is the previewed snippets, in order of first occurrence among the group's rows (which follow the sorted details, keyword alphabetical before text position), joined by " \n\n "; it is empty iff the paper has no rows, and shows every previewed snippet |
| Kwic.AggregateShowsPreview | kwic_screening.py:118-127 | when the preview is not full, every snippet of the paper appears in the aggregated text |
| Strings.Strip | rename_pdfs_by_nime_id.py:29 | the result is a run of the input with only whitespace before and after it, and it neither starts nor ends with whitespace; it is empty iff the input is all whitespace |
| Strings.StripUnique | rename_pdfs_by_nime_id.py:29 | any run with that shape is the stripped string, so the shape fixes it |
| Strings.Lower | filter_renamed_pdfs_combined.py:50-52 | lowering keeps the length and maps each character on its own, A-Z to a-z, so positions in the lowered text index the original |
| Strings.LowerIsLowercase | filter_renamed_pdfs_combined.py:50-52 | the lowered text has no upper-case letter, and lowering twice is lowering once |
| Strings.Join | filter_renamed_pdfs_combined.py:112 | joining no pieces gives "" and one piece gives that piece; otherwise the result starts with the first piece and ends with the last |
| Strings.JoinSnoc | kwic_screening.py:127 | joining one more piece appends the separator and that piece, which with the one-piece case fixes the joined string |
| Strings.JoinContainsPiece | kwic_screening.py:127 | every piece occurs in the joined string |
| Strings.InStr | filter_renamed_pdfs_combined.py:104 | `in` on strings holds iff the substring occurs at some position |
| Strings.ParseNatToString | rename_pdfs_by_nime_id.py:91 | the decimal rendering of a counter parses back to the counter |
| Seqs.Dedup | kwic_screening.py:126 | the result has no duplicates, the same members as the input, and first-occurrence order |
| Sorting.SortBy | kwic_screening.py:83 | the result is a permutation sorted by key |
| Sorting.SortByStable | kwic_screening.py:83 | among equal keys the input order is kept |
| Sorting.SortedUnique | filter_renamed_pdfs_combined.py:111 | two sorted permutations of one multiset agree when the key is injective |

## Left out

- PDF text extraction (pdfminer), file reading, directory walking, copying, directory creation, CSV reading and writing, progress bars and printed summaries. These are input/output. Texts and file lists are parameters. Copies are assumed to succeed, so a failed copy's missing counter bump is not modelled.
- The floating-point IDF values and the paper score (`calculate_paper_score`, the `log2`/`log10` arithmetic and the score sort). Only the integer document counts behind the weights are modelled.
- The grouping order of the screening sheet, and the read-back of the detail CSV through pandas. Empty context cells read back as NaN and become "". Text cells such as "NA" would also read back as missing. The model treats every cell as the string written.
- Non-ASCII text. Case mapping, `\b`, `\s` and `str.strip` are modelled over ASCII only, where lowering keeps positions aligned.
- The order in which the KWIC text files are listed. The file list is taken as given. Only ties between rows with equal year, name and keyword depend on it.
- Windows path semantics for `os.path.basename` and `Path.stem`. POSIX rules are modelled.
- The duplicated `main()` invocation at the end of the renaming script, and the crawler, the text-export script and the two merge scripts.
- Filter.KeyboardRelatedFolders: proves only that a folder holding keyboard, interface or layout goes under Keyboard_Interface_Related. The converse (no other combination of the fixed keywords spells one of those words) is not proved.
- Kwic.GetKwicSnippets: requires non-empty keywords, as the fixed keyword list is. An empty keyword would give `finditer` empty matches, which the model does not cover.
- Kwic.SnippetText: states the frame and the position of the bracketed word, not a parse of the snippet back into its parts.
- Kwic.AggregateShowsPreview: covers only previews with fewer than eight entries. Kwic.PreviewKeepsEarliest covers the full case.
- The `"KEYWORD"` fallback for a missing matched word is left out. A match is never empty, so the matched word is never missing.

=== FILE: filter.dfy ===
/** The combined filter of the renamed PDFs: each paper's full text, with
    its reference section removed, is searched for the fixed keyword list;
    a paper whose text holds no instrument keyword goes to the no-match
    folder, every other paper to a folder named after its keywords, split
    by whether the paper's title, abstract and keyword metadata also hold
    a keyword. */
module Filter {
  import opened Strings
  import opened Seqs
  import opened Metadata
  import opened References
  import opened Keywords
  import Rename

  /** `KEYWORDS`, in the order the search visits them. */
  const KeywordList: seq<string> :=
    ["Organ", "Keyboard", "Piano", "Clavichord", "Harpsichord", "Accordion", "Interface", "Layout"]

  /** `instrument_kws`. */
  const Instruments: set<string> :=
    {"organ", "keyboard", "piano", "clavichord", "harpsichord", "accordion"}

  /** The dependent keywords, which count only next to an instrument. */
  const Dependent: set<string> := {"interface", "layout"}

  /** The lowered keyword list is the six instruments and the two
      dependent keywords. */
  lemma LoweredKeywordList()
    ensures LowerAll(KeywordList) ==
              ["organ", "keyboard", "piano", "clavichord", "harpsichord", "accordion", "interface", "layout"]
  {
    assert Lower("Organ") == "organ";
    assert Lower("Keyboard") == "keyboard";
    assert Lower("Piano") == "piano";
    assert Lower("Clavichord") == "clavichord";
    assert Lower("Harpsichord") == "harpsichord";
    assert Lower("Accordion") == "accordion";
    assert Lower("Interface") == "interface";
    assert Lower("Layout") == "layout";
  }

  /** Every keyword the search can report is an instrument or a dependent
      keyword. */
  lemma FoundKeywordKinds(text: string, x: string)
    requires x in SearchKeywords(text, KeywordList).1
    ensures x in Instruments || x in Dependent
  {
    LoweredKeywordList();
  }

  /** A keyword of either kind is reported exactly when the lowered text
      holds it. */
  lemma FoundKeywordHit(text: string, x: string)
    requires x in Instruments || x in Dependent
    ensures x in SearchKeywords(text, KeywordList).1 <==> KeywordHit(Lower(text), x)
  {
    LoweredKeywordList();
  }

  // ---------------------------------------------------------------------
  // File names and metadata
  // ---------------------------------------------------------------------

  /** `extract_id_from_filename`: the name without a trailing ".pdf". */
  function ExtractId(filename: string): (r: string)
    ensures EndsWith(filename, ".pdf") ==> r + ".pdf" == filename
    ensures !EndsWith(filename, ".pdf") ==> r == filename
  {
    if EndsWith(filename, ".pdf") then filename[..|filename| - 4] else filename
  }

  /** The renaming step names files "{ID}.pdf", and the filter reads the
      ID back. */
  lemma ExtractIdRoundTrip(id: string)
    ensures ExtractId(id + ".pdf") == id
  {
    assert EndsWith(id + ".pdf", ".pdf") by {
      assert (id + ".pdf")[|id|..] == ".pdf";
    }
  }

  /** A renamed PDF reads back as its ID when it got the plain name, and as
      "{ID}_{n}" when it got a numbered
      one. */
  lemma RenamedIdReadBack(id: string, k: nat)
    ensures ExtractId(Rename.CandidateName(id, k)) ==
              if k == 0 then id else id + "_" + NatToString(k)
  {
    if k == 0 {
      ExtractIdRoundTrip(id);
    } else {
      ExtractIdRoundTrip(id + "_" + NatToString(k));
    }
  }

  /** The title, abstract and keyword cells kept for one paper. */
  datatype MetaFields = MetaFields(title: string, abstractText: string, keywords: string)

  /** What `id_to_meta.get(pdf_id, {})` yields for a missing paper: every
      field reads "". */
  const NoMeta: MetaFields := MetaFields("", "", "")

  function FieldsOf(r: PaperRecord): MetaFields
  {
    MetaFields(r.title, r.abstractText, r.keywords)
  }

  /** `build_id_to_meta_map`: rows with an empty stripped ID are skipped,
      and a later row with the same ID overwrites an earlier one. */
  function BuildIdToMeta(rows: seq<PaperRecord>): (m: map<string, MetaFields>)
    ensures forall id :: id in m <==> id != "" && LastRowWithId(rows, id) >= 0
    ensures forall id :: id in m ==> m[id] == FieldsOf(rows[LastRowWithId(rows, id)])
  {
    if |rows| == 0 then map[]
    else
      var m := BuildIdToMeta(rows[..|rows| - 1]);
      var last := rows[|rows| - 1];
      if RowId(last) == "" then m else m[RowId(last) := FieldsOf(last)]
  }

  /** The fields used for one paper: those of its row, or all empty. */
  function MetaFor(idToMeta: map<string, MetaFields>, id: string): MetaFields
  {
    if id in idToMeta then idToMeta[id] else NoMeta
  }

  /** `" ".join([title, abstract, keywords_field])`. */
  function Blob(m: MetaFields): string
  {
    Join([m.title, m.abstractText, m.keywords], " ")
  }

  // ---------------------------------------------------------------------
  // Classification of one paper
  // ---------------------------------------------------------------------

  const ReasonOnlyDependent := "No instrument keyword found in full text (only interface/layout present)"
  const ReasonNoKeyword := "No keyword match in full text"
  const ReasonNoMetadata := "Full-text match; no metadata available"
  const ReasonBoth := "Full-text and metadata match"
  const ReasonNotInMetadata := "Full-text match; no keyword match in metadata"

  /** The sub-folder of a keyword folder a matched paper is copied to. */
  datatype MetaBucket = MetadataMatch | NoMetadataMatch

  /** Where a paper is copied: `No_Keyword_Match`, or the keyword folder
      `folder` (under `Keyboard_Interface_Related` when `keyboardRelated`)
      and its bucket. */
  datatype Decision =
    | NoKeywordMatch
    | KeywordMatch(folder: string, keyboardRelated: bool, bucket: MetaBucket)

  /** One row of `filter_results.csv`. */
  datatype ResultRow = ResultRow(pdfName: string, containsKeywords: string, keywordsFound: string, reason: string)

  datatype Outcome = Outcome(decision: Decision, row: ResultRow)

  /** The keywords found in the full text with its reference section
      removed, lower-case, in keyword-list order. */
  function FullTextKeywords(text: string): seq<string>
  {
    SearchKeywords(RemoveReferences(text), KeywordList).1
  }

  /** Whether the folder name contains "keyboard", "interface" or
      "layout". */
  function KeyboardRelated(folder: string): bool
  {
    InStr("keyboard", folder) || InStr("interface", folder) || InStr("layout", folder)
  }

  /** Whether some instrument keyword is among `found`. */
  predicate HasInstrument(found: seq<string>)
  {
    exists i :: 0 <= i < |found| && found[i] in Instruments
  }

  /** Whether "interface" or "layout" is among `found`. */
  predicate HasDependent(found: seq<string>)
  {
    exists i :: 0 <= i < |found| && found[i] in Dependent
  }

  /** Whether the metadata text holds a keyword: `found_metadata`. */
  function MetadataHit(meta: MetaFields): bool
  {
    SearchKeywords(Blob(meta), KeywordList).0
  }

  /** The decision of the main loop given the keywords `found` in the
      full text: no match when nothing was found or only dependent
      keywords were, otherwise by whether the paper has metadata and
      whether its metadata text holds a keyword. */
  function Decide(pdfName: string, found: seq<string>, hasMeta: bool, metaHit: bool): (o: Outcome)
    ensures o.row.pdfName == pdfName
    ensures o.row.keywordsFound == Join(found, "; ")
    ensures o.decision.KeywordMatch? <==> |found| > 0 && (HasInstrument(found) || !HasDependent(found))
    ensures o.row.containsKeywords == (if o.decision.KeywordMatch? then "Yes" else "No")
    ensures o.decision.NoKeywordMatch? ==>
              o.row.reason == (if HasDependent(found) then ReasonOnlyDependent else ReasonNoKeyword)
    ensures o.decision.KeywordMatch? ==>
              o.decision.folder == FolderName(found) && o.decision.keyboardRelated == KeyboardRelated(FolderName(found))
    ensures o.decision.KeywordMatch? ==> (o.decision.bucket == MetadataMatch <==> hasMeta && metaHit)
    ensures o.decision.KeywordMatch? ==>
              o.row.reason == (if !hasMeta then ReasonNoMetadata
                               else if o.decision.bucket == MetadataMatch then ReasonBoth
                               else ReasonNotInMetadata)
  {
    var instruments := Seqs.Filter(found, k => k in Instruments);
    var dependent := Seqs.Filter(found, k => k in Dependent);
    var joined := Join(found, "; ");
    assert |instruments| > 0 <==> HasInstrument(found) by {
      if HasInstrument(found) {
        var i :| 0 <= i < |found| && found[i] in Instruments;
        assert found[i] in instruments;
      }
      if |instruments| > 0 {
        assert instruments[0] in instruments;
        var i :| 0 <= i < |found| && found[i] == instruments[0];
      }
    }
    assert |dependent| > 0 <==> HasDependent(found) by {
      if HasDependent(found) {
        var i :| 0 <= i < |found| && found[i] in Dependent;
        assert found[i] in dependent;
      }
      if |dependent| > 0 {
        assert dependent[0] in dependent;
        var i :| 0 <= i < |found| && found[i] == dependent[0];
      }
    }
    if |found| == 0 || (|dependent| > 0 && |instruments| == 0) then
      var reason := if |dependent| > 0 then ReasonOnlyDependent else ReasonNoKeyword;
      Outcome(NoKeywordMatch, ResultRow(pdfName, "No", joined, reason))
    else
      var folder := FolderName(found);
      var kbd := KeyboardRelated(folder);
      if !hasMeta then
        Outcome(KeywordMatch(folder, kbd, NoMetadataMatch), ResultRow(pdfName, "Yes", joined, ReasonNoMetadata))
      else if metaHit then
        Outcome(KeywordMatch(folder, kbd, MetadataMatch), ResultRow(pdfName, "Yes", joined, ReasonBoth))
      else
        Outcome(KeywordMatch(folder, kbd, NoMetadataMatch), ResultRow(pdfName, "Yes", joined, ReasonNotInMetadata))
  }

  /** The full-text keywords are non-empty and free of instruments only
      when a dependent keyword is among them. */
  lemma OnlyDependentLeft(text: string)
    ensures |FullTextKeywords(text)| > 0 && !HasInstrument(FullTextKeywords(text)) ==> HasDependent(FullTextKeywords(text))
  {
    var found := FullTextKeywords(text);
    if |found| > 0 && !HasInstrument(found) {
      FoundKeywordKinds(RemoveReferences(text), found[0]);
    }
  }

  /** The body of the main loop for one PDF whose extracted text is `text`
      and whose metadata fields are `meta`. */
  function ClassifyPaper(pdfName: string, text: string, meta: MetaFields): (o: Outcome)
    ensures o.decision.KeywordMatch? <==> HasInstrument(FullTextKeywords(text))
    ensures o.row.pdfName == pdfName && o.row.keywordsFound == Join(FullTextKeywords(text), "; ")
    ensures o.decision.KeywordMatch? ==> o.decision.folder == FolderName(FullTextKeywords(text))
    ensures o.decision.KeywordMatch? ==> (o.decision.bucket == MetadataMatch <==> meta != NoMeta && MetadataHit(meta))
  {
    OnlyDependentLeft(text);
    Decide(pdfName, FullTextKeywords(text), meta != NoMeta, MetadataHit(meta))
  }

  /** A paper is kept exactly when its full text, reference section
      removed, holds an instrument keyword; "interface" and "layout" alone
      never keep it. */
  lemma KeptIffInstrument(pdfName: string, text: string, meta: MetaFields)
    ensures ClassifyPaper(pdfName, text, meta).decision.KeywordMatch? <==>
              exists k :: k in Instruments && KeywordHit(Lower(RemoveReferences(text)), k)
  {
    var found := FullTextKeywords(text);
    var t := RemoveReferences(text);
    if HasInstrument(found) {
      var i :| 0 <= i < |found| && found[i] in Instruments;
      FoundKeywordHit(t, found[i]);
    }
    if exists k :: k in Instruments && KeywordHit(Lower(t), k) {
      var k :| k in Instruments && KeywordHit(Lower(t), k);
      FoundKeywordHit(t, k);
      var i :| 0 <= i < |found| && found[i] == k;
    }
  }

  /** The metadata decides only the bucket: whether a paper is kept, its
      keyword folder and its listed keywords depend on the full text
      alone. */
  lemma MetadataOnlyChoosesBucket(pdfName: string, text: string, m1: MetaFields, m2: MetaFields)
    ensures ClassifyPaper(pdfName, text, m1).decision.KeywordMatch? == ClassifyPaper(pdfName, text, m2).decision.KeywordMatch?
    ensures ClassifyPaper(pdfName, text, m1).row.keywordsFound == ClassifyPaper(pdfName, text, m2).row.keywordsFound
    ensures ClassifyPaper(pdfName, text, m1).decision.KeywordMatch? ==>
              ClassifyPaper(pdfName, text, m1).decision.folder == ClassifyPaper(pdfName, text, m2).decision.folder
  {
  }

  /** A paper whose folder holds "keyboard", "interface" or "layout" goes
      under `Keyboard_Interface_Related`. */
  lemma KeyboardRelatedFolders(found: seq<string>, x: string)
    requires x in found && (x == "keyboard" || x == "interface" || x == "layout")
    ensures KeyboardRelated(FolderName(found))
  {
  }

  // ---------------------------------------------------------------------
  // The whole run
  // ---------------------------------------------------------------------

  /** One collected PDF: its file name and the text extracted from it. */
  datatype PdfInput = PdfInput(name: string, text: string)

  /** What the run reports: the result rows in processing order, the two
      copy counters and the set of keyword folders created. */
  datatype Summary = Summary(rows: seq<ResultRow>, copiedYes: nat, copiedNo: nat, folders: set<string>)

  /** The run stops with an error when no PDF was collected. */
  datatype Run = NoPdfs | Ran(summary: Summary)

  /** One PDF, with the metadata looked up by the ID in its file name. */
  function ClassifyFile(p: PdfInput, idToMeta: map<string, MetaFields>): Outcome
  {
    ClassifyPaper(p.name, p.text, MetaFor(idToMeta, ExtractId(p.name)))
  }

  /** The number of kept papers, counted from the front. */
  function CountKept(outs: seq<Outcome>): nat
  {
    if |outs| == 0 then 0
    else (if outs[0].decision.KeywordMatch? then 1 else 0) + CountKept(outs[1..])
  }

  lemma {:induction false} CountKeptSnoc(outs: seq<Outcome>, o: Outcome)
    ensures CountKept(outs + [o]) == CountKept(outs) + (if o.decision.KeywordMatch? then 1 else 0)
  {
    if |outs| > 0 {
      assert (outs + [o])[1..] == outs[1..] + [o];
      CountKeptSnoc(outs[1..], o);
    }
  }

  /** The loop's bookkeeping over the outcomes so far: each outcome adds
      its row, bumps one counter and, when kept, records its folder. */
  function Tally(outs: seq<Outcome>): (r: Summary)
    ensures |r.rows| == |outs| && forall i :: 0 <= i < |outs| ==> r.rows[i] == outs[i].row
    ensures r.copiedYes + r.copiedNo == |outs|
    ensures r.copiedYes == CountKept(outs)
    ensures forall f :: f in r.folders <==>
              exists i :: 0 <= i < |outs| && outs[i].decision.KeywordMatch? && outs[i].decision.folder == f
  {
    if |outs| == 0 then Summary([], 0, 0, {})
    else
      var init := outs[..|outs| - 1];
      var o := outs[|outs| - 1];
      var s := Tally(init);
      assert outs == init + [o];
      CountKeptSnoc(init, o);
      match o.decision
      case NoKeywordMatch =>
        Summary(s.rows + [o.row], s.copiedYes, s.copiedNo + 1, s.folders)
      case KeywordMatch(folder, _, _) =>
        Summary(s.rows + [o.row], s.copiedYes + 1, s.copiedNo, s.folders + {folder})
  }

  /** The loop of `main` over the collected PDFs, with `classify` standing
      for the per-PDF work. */
  function RunWith(pdfs: seq<PdfInput>, classify: PdfInput -> Outcome): (r: Run)
    ensures r.NoPdfs? <==> |pdfs| == 0
    ensures r.Ran? ==> |r.summary.rows| == |pdfs| && r.summary.copiedYes + r.summary.copiedNo == |pdfs|
    ensures r.Ran? ==> forall i :: 0 <= i < |pdfs| ==> r.summary.rows[i] == classify(pdfs[i]).row
  {
    if |pdfs| == 0 then NoPdfs
    else Ran(Tally(seq(|pdfs|, i requires 0 <= i < |pdfs| => classify(pdfs[i]))))
  }

  /** `main` of the combined filter over the collected PDFs and the rows
      of the paper table. */
  function RunFilter(pdfs: seq<PdfInput>, table: seq<PaperRecord>): (r: Run)
    ensures r.NoPdfs? <==> |pdfs| == 0
    ensures r.Ran? ==> |r.summary.rows| == |pdfs| && r.summary.copiedYes + r.summary.copiedNo == |pdfs|
    ensures r.Ran? ==> forall i :: 0 <= i < |pdfs| ==>
              r.summary.rows[i] == ClassifyFile(pdfs[i], BuildIdToMeta(table)).row
  {
    var m := BuildIdToMeta(table);
    RunWith(pdfs, (p: PdfInput) => ClassifyFile(p, m))
  }
}

=== FILE: keywords.dfy ===
/** `search_keywords_in_text` and `create_keyword_folder_name` of the
    combined filter: case-insensitive keyword search in which "organ" must
    stand as the whole word "organ" or "organs", and the folder name built
    from the sorted keyword list. */
module Keywords {
  import opened Strings
  import opened Seqs
  import opened Sorting
  import opened Regex

  /** `\borgans?\b`. */
  const OrganPattern: Pattern := WholeWord("organ", ["s"])

  /** Whether the lowered keyword `k` is found in the lowered text `t`:
      "organ" through the whole-word pattern, every other keyword as a
      plain substring. */
  function KeywordHit(t: string, k: string): bool
  {
    if k == "organ" then Search(OrganPattern, t) else InStr(k, t)
  }

  /** `normalize(kw)` for every keyword, in order. */
  function LowerAll(keywords: seq<string>): (r: seq<string>)
    ensures |r| == |keywords|
    ensures forall i :: 0 <= i < |r| ==> r[i] == Lower(keywords[i])
  {
    seq(|keywords|, i requires 0 <= i < |keywords| => Lower(keywords[i]))
  }

  /** The loop of `search_keywords_in_text` over the lowered keywords,
      with `hit` standing for the test of one keyword: it appends a
      keyword when it is found and not yet listed, which keeps the found
      keywords once each, in the order of their first occurrence in the
      list. */
  function SearchWith(lowered: seq<string>, hit: string -> bool): (r: (bool, seq<string>))
    ensures r.0 <==> |r.1| > 0
    ensures NoDup(r.1)
    ensures forall x :: x in r.1 <==> x in lowered && hit(x)
    ensures forall i, j :: 0 <= i < j < |r.1| ==> IndexOf(lowered, r.1[i]) < IndexOf(lowered, r.1[j])
  {
    var found := Dedup(Filter(lowered, hit));
    assert forall i, j :: 0 <= i < j < |found| ==> IndexOf(lowered, found[i]) < IndexOf(lowered, found[j]) by {
      forall i, j | 0 <= i < j < |found|
        ensures IndexOf(lowered, found[i]) < IndexOf(lowered, found[j])
      {
        FilterIndexOrder(lowered, hit, found[i], found[j]);
      }
    }
    (|found| > 0, found)
  }

  /** `search_keywords_in_text(text, keywords)`: the flag says whether any
      keyword was found; the list holds each found keyword once, lowered,
      in keyword-list order. */
  function SearchKeywords(text: string, keywords: seq<string>): (r: (bool, seq<string>))
    ensures r.0 <==> |r.1| > 0
    ensures NoDup(r.1)
    ensures forall x :: x in r.1 <==> x in LowerAll(keywords) && KeywordHit(Lower(text), x)
    ensures forall i, j :: 0 <= i < j < |r.1| ==>
              IndexOf(LowerAll(keywords), r.1[i]) < IndexOf(LowerAll(keywords), r.1[j])
  {
    var t := Lower(text);
    SearchWith(LowerAll(keywords), k => KeywordHit(t, k))
  }

  /** Every keyword the search reports is lower-case. */
  lemma SearchKeywordsLowercase(text: string, keywords: seq<string>, x: string)
    requires x in SearchKeywords(text, keywords).1
    ensures IsLowercase(x)
  {
    var i :| 0 <= i < |LowerAll(keywords)| && LowerAll(keywords)[i] == x;
    LowerIsLowercase(keywords[i]);
  }

  /** "organ" is reported exactly when "organ" or "organs" stands in the
      lowered text as a whole word. */
  lemma OrganWholeWord(t: string)
    ensures KeywordHit(t, "organ") <==>
              exists i: nat :: WordAt(t, i, "organ", "s") || WordAt(t, i, "organ", "")
  {
    var alts := Alternatives(["s"]);
    assert alts == ["s", ""];
    if KeywordHit(t, "organ") {
      var i: nat :| MatchAt(OrganPattern, t, i).Some?;
      WholeWordMatchShape("organ", ["s"], t, i);
      var s :| s in alts && WordAt(t, i, "organ", s);
      assert WordAt(t, i, "organ", "s") || WordAt(t, i, "organ", "");
    } else {
      forall i: nat ensures !(WordAt(t, i, "organ", "s") || WordAt(t, i, "organ", "")) {
        assert MatchAt(OrganPattern, t, i).None?;
        WholeWordMatchShape("organ", ["s"], t, i);
        assert "s" in alts && "" in alts;
      }
    }
  }

  /** In "organization", "organ" stands only at 0, and there it is
      followed by a word character. */
  lemma NoOrganWordInOrganization(i: nat)
    ensures !WordAt("organization", i, "organ", "s") && !WordAt("organization", i, "organ", "")
  {
    var t := "organization";
    assert OccursAt("organ", t, i) ==> i <= 7 && t[i] == 'o' by {
      if OccursAt("organ", t, i) {
        assert t[i..i + 5][0] == t[i];
      }
    }
    assert t[1] != 'o' && t[2] != 'o' && t[3] != 'o' && t[4] != 'o';
    assert t[5] != 'o' && t[6] != 'o' && t[7] != 'o';
    if i == 0 {
      assert !OccursAt("s", t, 5) by {
        assert t[5] == 'i';
      }
      assert !Boundary(t, 5) by {
        assert t[4] == 'n' && t[5] == 'i';
      }
    }
  }

  /** "organization" alone does not count as "organ". */
  lemma OrganizationIsNotOrgan()
    ensures !KeywordHit("organization", "organ")
  {
    OrganWholeWord("organization");
    forall i: nat ensures !(WordAt("organization", i, "organ", "s") || WordAt("organization", i, "organ", "")) {
      NoOrganWordInOrganization(i);
    }
  }

  /** Any other keyword is reported exactly when it occurs in the lowered
      text. */
  lemma PlainKeywordSubstring(t: string, k: string)
    requires k != "organ"
    ensures KeywordHit(t, k) <==> Contains(t, k)
  {
  }

  // ---------------------------------------------------------------------
  // Folder name
  // ---------------------------------------------------------------------

  /** `create_keyword_folder_name`: the keywords in code-point order,
      joined by "_" (see `SortStrings`, `JoinSnoc`); every keyword of the
      list is part of the name. */
  function FolderName(keywords: seq<string>): (r: string)
    ensures r == Join(SortStrings(keywords), "_")
    ensures forall x :: x in keywords ==> Contains(r, x)
  {
    var s := SortStrings(keywords);
    assert forall x :: x in keywords ==> Contains(Join(s, "_"), x) by {
      forall x | x in keywords ensures Contains(Join(s, "_"), x) {
        assert x in multiset(s);
        var k :| 0 <= k < |s| && s[k] == x;
        JoinContainsPiece(s, "_", k);
      }
    }
    Join(s, "_")
  }

  /** The folder name depends only on which keywords were found, not on
      the order they were found in. */
  lemma {:induction false} FolderNamePermutationInvariant(a: seq<string>, b: seq<string>)
    requires multiset(a) == multiset(b)
    ensures FolderName(a) == FolderName(b)
  {
    var sa, sb := SortBy(a, Single), SortBy(b, Single);
    assert forall x, y :: Single(x) == Single(y) ==> x == y by {
      forall x, y | Single(x) == Single(y) ensures x == y {
        assert Single(x)[0] == x && Single(y)[0] == y;
      }
    }
    SortedUnique(sa, sb, Single);
  }
}

=== FILE: kwic.dfy ===
/** The keyword-in-context screening step: every whole-word occurrence of
    a target keyword (with its allowed suffixes) in a paper's text yields a
    snippet with up to 80 characters of context on each side; the snippets
    become detail rows tagged with the paper's year, sorted by year, paper
    and keyword; per paper the distinct snippets make an 8-entry preview,
    and per keyword the number of papers mentioning it feeds an IDF
    weight. */
module Kwic {
  import opened Strings
  import opened Seqs
  import opened Sorting
  import opened Regex
  import opened Paths

  /** `TARGET_KEYWORDS`. */
  const TargetKeywords: seq<string> :=
    ["organ", "keyboard", "piano", "clavichord", "harpsichord", "accordion", "interface", "layout"]

  /** `CONTEXT_WINDOW`. */
  const ContextWindow: nat := 80

  /** The keywords whose pattern also accepts "ist" and "ists" after the
      keyword itself: "keyboardist" and "organists" match, but "pianist"
      does not, since it does not contain "piano" (see
      `PianistNotMatched`). */
  const PlayerKeywords: set<string> := {"keyboard", "piano", "organ", "accordion"}

  function Suffixes(kw: string): seq<string>
  {
    if kw in PlayerKeywords then ["s", "ist", "ists"] else ["s"]
  }

  /** `\bKW(s|ist|ists)?\b` for the player keywords, `\bKWs?\b` otherwise. */
  function KeywordPattern(kw: string): Pattern
  {
    WholeWord(kw, Suffixes(kw))
  }

  /** The player suffixes attach to the whole keyword: "keyboardist" is
      one whole-word match of "keyboard". */
  lemma KeyboardistMatched()
    ensures MatchAt(KeywordPattern("keyboard"), "keyboardist", 0) == Some(11)
  {
    var t := "keyboardist";
    assert OccursAt("keyboard", t, 0) by {
      assert t[..8] == "keyboard";
    }
    assert OccursAt("ist", t, 8) by {
      assert t[8..11] == "ist";
    }
    assert t[8] == 'i' && t[8..9][0] != "s"[0];
    assert !SuffixFits(t, 8, "s");
    assert Boundary(t, 0) && Boundary(t, 11);
    assert FirstSuffix(t, 8, Alternatives(Suffixes("keyboard")), 0) == Some(1);
  }

  /** "pianist" is not a match of the "piano" pattern anywhere: the
      suffixes follow "piano", so the pattern accepts "pianoist" and never
      "pianist". */
  lemma PianistNotMatched()
    ensures forall i: nat :: MatchAt(KeywordPattern("piano"), "pianist", i).None?
  {
    var t := "pianist";
    forall i: nat ensures !OccursAt("piano", t, i) {
      if i == 0 {
        assert t[4] == 'i';
        assert t[0..5][4] != "piano"[4];
      } else if i <= 2 {
        assert t[i] != 'p';
        assert t[i..i + 5][0] != "piano"[0];
      }
    }
  }

  predicate NonEmptyWords(keywords: seq<string>)
  {
    forall i :: 0 <= i < |keywords| ==> |keywords[i]| > 0
  }

  // ---------------------------------------------------------------------
  // Occurrences
  // ---------------------------------------------------------------------

  /** A match of the `kwIndex`-th keyword's pattern at `span`. */
  datatype Occurrence = Occurrence(kwIndex: nat, span: Span)

  /** Occurrence `a` comes before `b`: keyword-list order first, then
      position. */
  predicate Before(a: Occurrence, b: Occurrence)
  {
    a.kwIndex < b.kwIndex || (a.kwIndex == b.kwIndex && a.span.end <= b.span.start)
  }

  function Tag(k: nat, spans: seq<Span>): (r: seq<Occurrence>)
    ensures |r| == |spans| && forall i :: 0 <= i < |r| ==> r[i] == Occurrence(k, spans[i])
  {
    seq(|spans|, i requires 0 <= i < |spans| => Occurrence(k, spans[i]))
  }

  /** A genuine match of keyword `o.kwIndex` in the lowered text `t`. */
  predicate ValidOccurrence(t: string, keywords: seq<string>, o: Occurrence)
    requires NonEmptyWords(keywords)
  {
    && o.kwIndex < |keywords|
    && o.span.start < o.span.end <= |t|
    && MatchAt(KeywordPattern(keywords[o.kwIndex]), t, o.span.start) == Some(o.span.end)
  }

  /** The matches `get_kwic_snippets` visits for the keywords from index
      `k` on: keyword by keyword, and for each keyword the `re.finditer`
      matches left to right. */
  function OccurrencesFrom(t: string, keywords: seq<string>, k: nat): (r: seq<Occurrence>)
    requires NonEmptyWords(keywords) && k <= |keywords|
    ensures forall i :: 0 <= i < |r| ==> k <= r[i].kwIndex && ValidOccurrence(t, keywords, r[i])
    ensures forall i, j :: 0 <= i < j < |r| ==> Before(r[i], r[j])
    decreases |keywords| - k
  {
    if k == |keywords| then []
    else
      var spans := FindIter(KeywordPattern(keywords[k]), t, 0);
      TagOrdered(k, spans);
      Tag(k, spans) + OccurrencesFrom(t, keywords, k + 1)
  }

  /** The non-overlap of consecutive spans extends to any two. */
  lemma {:induction false} SpansOrdered(spans: seq<Span>, i: nat, j: nat)
    requires forall k :: 0 <= k < |spans| ==> spans[k].start < spans[k].end
    requires forall k :: 0 <= k < |spans| - 1 ==> spans[k].end <= spans[k + 1].start
    requires i < j < |spans|
    ensures spans[i].end <= spans[j].start
    decreases j - i
  {
    if j > i + 1 {
      SpansOrdered(spans, i + 1, j);
    }
  }

  /** The matches of one keyword, left to right, come in `Before`
      order. */
  lemma TagOrdered(k: nat, spans: seq<Span>)
    requires forall i :: 0 <= i < |spans| ==> spans[i].start < spans[i].end
    requires forall i :: 0 <= i < |spans| - 1 ==> spans[i].end <= spans[i + 1].start
    ensures forall i, j :: 0 <= i < j < |spans| ==> Before(Tag(k, spans)[i], Tag(k, spans)[j])
  {
    forall i, j | 0 <= i < j < |spans| ensures Before(Tag(k, spans)[i], Tag(k, spans)[j]) {
      SpansOrdered(spans, i, j);
    }
  }

  function Occurrences(t: string, keywords: seq<string>): seq<Occurrence>
    requires NonEmptyWords(keywords)
  {
    OccurrencesFrom(t, keywords, 0)
  }

  /** Some occurrence of keyword `kw` in `occ` contains position `i`. */
  predicate CoveredFor(occ: seq<Occurrence>, kw: nat, i: nat)
  {
    exists j :: 0 <= j < |occ| && occ[j].kwIndex == kw && occ[j].span.start <= i < occ[j].span.end
  }

  lemma CoveredForAppend(a: seq<Occurrence>, b: seq<Occurrence>, kw: nat, i: nat)
    requires CoveredFor(a, kw, i) || CoveredFor(b, kw, i)
    ensures CoveredFor(a + b, kw, i)
  {
    if CoveredFor(a, kw, i) {
      var j :| 0 <= j < |a| && a[j].kwIndex == kw && a[j].span.start <= i < a[j].span.end;
      assert (a + b)[j] == a[j];
    } else {
      var j :| 0 <= j < |b| && b[j].kwIndex == kw && b[j].span.start <= i < b[j].span.end;
      assert (a + b)[|a| + j] == b[j];
    }
  }

  lemma TagCovers(k: nat, spans: seq<Span>, i: nat)
    requires Covers(spans, i)
    ensures CoveredFor(Tag(k, spans), k, i)
  {
    var m :| 0 <= m < |spans| && spans[m].start <= i < spans[m].end;
    assert Tag(k, spans)[m].span == spans[m];
  }

  /** Every match of a keyword's pattern lies inside one of the visited
      occurrences of that keyword. */
  lemma {:induction false} OccurrencesComplete(t: string, keywords: seq<string>, k: nat, kw: nat, i: nat)
    requires NonEmptyWords(keywords) && k <= kw < |keywords|
    requires MatchAt(KeywordPattern(keywords[kw]), t, i).Some?
    ensures CoveredFor(OccurrencesFrom(t, keywords, k), kw, i)
    decreases |keywords| - k
  {
    var spans := FindIter(KeywordPattern(keywords[k]), t, 0);
    var here := Tag(k, spans);
    var rest := OccurrencesFrom(t, keywords, k + 1);
    assert OccurrencesFrom(t, keywords, k) == here + rest;
    if kw == k {
      FindIterComplete(KeywordPattern(keywords[k]), t, 0, i);
      TagCovers(k, spans, i);
    } else {
      OccurrencesComplete(t, keywords, k + 1, kw, i);
    }
    CoveredForAppend(here, rest, kw, i);
  }

  // ---------------------------------------------------------------------
  // Snippets
  // ---------------------------------------------------------------------

  /** One snippet of `get_kwic_snippets`. */
  datatype Snippet = Snippet(keyword: string, matchedWord: string, before: string, after: string)

  function FlatChar(c: char): char
  {
    if c == '\n' then ' ' else c
  }

  /** `s.replace('\n', ' ')`. */
  function Flatten(s: string): (r: string)
    ensures |r| == |s|
    ensures forall i :: 0 <= i < |s| ==> r[i] == FlatChar(s[i])
    ensures '\n' !in r
  {
    seq(|s|, i requires 0 <= i < |s| => FlatChar(s[i]))
  }

  /** `r` is the run of `text` starting at `lo`, newlines read as
      spaces. */
  predicate FlatRunAt(r: string, text: string, lo: nat)
  {
    lo + |r| <= |text| && forall k :: 0 <= k < |r| ==> r[k] == FlatChar(text[lo + k])
  }

  /** `r` is `text[a..b]` with newlines read as spaces and the surrounding
      whitespace removed: it is the flattened run at `lo`, every character
      of the slice before and after it is whitespace (a newline is, both
      before and after flattening), and it neither starts nor ends with
      whitespace. */
  predicate TrimmedContext(r: string, text: string, a: nat, b: nat, lo: nat)
    requires a <= b <= |text|
  {
    && a <= lo && lo + |r| <= b
    && FlatRunAt(r, text, lo)
    && (forall k :: a <= k < lo ==> IsSpace(text[k]))
    && (forall k :: lo + |r| <= k < b ==> IsSpace(text[k]))
    && (|r| > 0 ==> !IsSpace(r[0]) && !IsSpace(r[|r| - 1]))
  }

  /** `text[a:b].replace('\n', ' ').strip()`: the slice, flattened, with
      exactly its surrounding whitespace removed. */
  function Context(text: string, a: nat, b: nat): (r: string)
    requires a <= b <= |text|
    ensures '\n' !in r
    ensures exists lo: nat :: TrimmedContext(r, text, a, b, lo)
  {
    var flat := Flatten(text[a..b]);
    var r := Strip(flat);
    var lo: nat :| StrippedAt(flat, r, lo);
    FlatTrimmed(text, a, b, r, lo);
    r
  }

  /** Stripping the flattened slice and trimming the slice in place are the
      same thing, position for position. */
  lemma FlatTrimmed(text: string, a: nat, b: nat, r: string, lo: nat)
    requires a <= b <= |text|
    ensures StrippedAt(Flatten(text[a..b]), r, lo) <==> TrimmedContext(r, text, a, b, a + lo)
  {
    var flat := Flatten(text[a..b]);
    assert forall k :: 0 <= k < |flat| ==> flat[k] == FlatChar(text[a + k]);
    if StrippedAt(flat, r, lo) {
      forall k | 0 <= k < |r| ensures r[k] == FlatChar(text[a + lo + k]) {
        OccursAtIndex(r, flat, lo, k);
      }
      forall k | a <= k < a + lo ensures IsSpace(text[k]) {
        assert IsSpace(flat[k - a]);
      }
      forall k | a + lo + |r| <= k < b ensures IsSpace(text[k]) {
        assert IsSpace(flat[k - a]);
      }
    }
    if TrimmedContext(r, text, a, b, a + lo) {
      assert flat[lo..lo + |r|] == r;
      forall k | 0 <= k < lo ensures IsSpace(flat[k]) {
        assert IsSpace(text[a + k]);
      }
      forall k | lo + |r| <= k < |flat| ensures IsSpace(flat[k]) {
        assert IsSpace(text[a + k]);
      }
    }
  }

  /** Only one string has the trimmed-context shape: whatever satisfies it
      is `Context(text, a, b)`. */
  lemma ContextUnique(text: string, a: nat, b: nat, r: string, lo: nat)
    requires a <= b <= |text| && TrimmedContext(r, text, a, b, lo)
    ensures r == Context(text, a, b)
  {
    FlatTrimmed(text, a, b, r, lo - a);
    StripUnique(Flatten(text[a..b]), r, lo - a);
  }

  /** The slice bounds of the context around a match: `max(0, start -
      window)` to the start, and the end to `min(len(text), end +
      window)`. */
  function WindowStart(start: nat, window: nat): (a: nat)
    ensures a <= start && start - a <= window
    ensures a == 0 || start - a == window
  {
    if start >= window then start - window else 0
  }

  function WindowEnd(end: nat, window: nat, len: nat): (b: nat)
    requires end <= len
    ensures end <= b <= len && b - end <= window
    ensures b == len || b - end == window
  {
    if end + window <= len then end + window else len
  }

  /** The matched word, lowered, is the keyword followed by one of its
      allowed suffixes or by nothing. */
  lemma MatchedWordShape(text: string, kw: string, st: nat, en: nat)
    requires |kw| > 0
    requires MatchAt(KeywordPattern(kw), Lower(text), st) == Some(en)
    ensures en <= |text|
    ensures exists a :: a in Alternatives(Suffixes(kw)) && Lower(text[st..en]) == kw + a
  {
    var t := Lower(text);
    var alts := Alternatives(Suffixes(kw));
    WholeWordMatchShape(kw, Suffixes(kw), t, st);
    var k :| 0 <= k < |alts| && WordAt(t, st, kw, alts[k]) && en == st + |kw| + |alts[k]|;
    OccursAtConcat(kw, alts[k], t, st);
    LowerSlice(text, st, en);
    assert alts[k] in alts;
  }

  /** The lowered matched word is the keyword followed by one of its
      allowed suffixes or by nothing. */
  ghost predicate WordForm(sn: Snippet)
  {
    exists a :: a in Alternatives(Suffixes(sn.keyword)) && Lower(sn.matchedWord) == sn.keyword + a
  }

  /** Both contexts are at most `window` long and hold no newline. */
  predicate ContextBounded(sn: Snippet, window: nat)
  {
    |sn.before| <= window && |sn.after| <= window && '\n' !in sn.before && '\n' !in sn.after
  }

  /** The snippet for one occurrence: the keyword, the matched word in the
      original case, and the flattened, stripped context on each side. */
  function SnippetOf(text: string, keywords: seq<string>, o: Occurrence, window: nat): (s: Snippet)
    requires NonEmptyWords(keywords) && ValidOccurrence(Lower(text), keywords, o)
    ensures ContextBounded(s, window)
    ensures s.keyword == keywords[o.kwIndex] && s.matchedWord == text[o.span.start..o.span.end]
    ensures WordForm(s)
    ensures s.before == Context(text, WindowStart(o.span.start, window), o.span.start)
    ensures s.after == Context(text, o.span.end, WindowEnd(o.span.end, window, |text|))
  {
    var st, en := o.span.start, o.span.end;
    MatchedWordShape(text, keywords[o.kwIndex], st, en);
    Snippet(keywords[o.kwIndex], text[st..en],
            Context(text, WindowStart(st, window), st),
            Context(text, en, WindowEnd(en, window, |text|)))
  }

  /** `get_kwic_snippets(text, keywords, window)`: one snippet per
      occurrence, in the order visited. */
  function GetKwicSnippets(text: string, keywords: seq<string>, window: nat): (r: seq<Snippet>)
    requires NonEmptyWords(keywords)
    ensures |r| == |Occurrences(Lower(text), keywords)|
    ensures forall i :: 0 <= i < |r| ==>
              var o := Occurrences(Lower(text), keywords)[i];
              && r[i].keyword == keywords[o.kwIndex]
              && r[i].matchedWord == text[o.span.start..o.span.end]
              && r[i].before == Context(text, WindowStart(o.span.start, window), o.span.start)
              && r[i].after == Context(text, o.span.end, WindowEnd(o.span.end, window, |text|))
    ensures forall i :: 0 <= i < |r| ==> ContextBounded(r[i], window) && WordForm(r[i])
    ensures forall i :: 0 <= i < |r| ==> r[i].keyword in keywords
  {
    var occ := Occurrences(Lower(text), keywords);
    seq(|occ|, i requires 0 <= i < |occ| => SnippetOf(text, keywords, occ[i], window))
  }

  // ---------------------------------------------------------------------
  // Year and detail rows
  // ---------------------------------------------------------------------

  /** `nime(\d{4})_` matches at `i`. */
  predicate YearAt(name: string, i: nat)
  {
    && i + 9 <= |name|
    && name[i..i + 4] == "nime"
    && IsDigit(name[i + 4]) && IsDigit(name[i + 5]) && IsDigit(name[i + 6]) && IsDigit(name[i + 7])
    && name[i + 8] == '_'
  }

  /** The leftmost match position from `i` on. */
  function FirstYearFrom(name: string, i: nat): (r: Option<nat>)
    ensures r.Some? ==> i <= r.value && YearAt(name, r.value) && forall j: nat :: i <= j < r.value ==> !YearAt(name, j)
    ensures r.None? ==> forall j: nat :: i <= j ==> !YearAt(name, j)
    decreases |name| - i
  {
    if i + 9 > |name| then None
    else if YearAt(name, i) then Some(i)
    else FirstYearFrom(name, i + 1)
  }

  /** The year column: the four digits of the leftmost `nime(\d{4})_` in
      the PDF name, or "Unknown". */
  function YearOf(pdfName: string): (y: string)
    ensures y == "Unknown" <==> forall i: nat :: !YearAt(pdfName, i)
    ensures y != "Unknown" ==>
              exists i: nat :: YearAt(pdfName, i) && y == pdfName[i + 4..i + 8] &&
                forall j: nat :: j < i ==> !YearAt(pdfName, j)
  {
    match FirstYearFrom(pdfName, 0)
    case None => "Unknown"
    case Some(i) =>
      var y := pdfName[i + 4..i + 8];
      assert |y| == 4;
      y
  }

  /** `nime2013_Batula.pdf` is from 2013. */
  lemma YearExample()
    ensures YearOf("nime2013_Batula.pdf") == "2013"
  {
    assert YearAt("nime2013_Batula.pdf", 0);
  }

  /** One text file of the input folder. */
  datatype TextFile = TextFile(name: string, text: string)

  /** `txt_file.stem + '.pdf'`. */
  function PdfNameOf(f: TextFile): string
  {
    Stem(f.name) + ".pdf"
  }

  /** One row of `kwic_details_all_instances.csv`. */
  datatype DetailRow = DetailRow(
    year: string, pdfName: string, before: string, keyword: string,
    matchedWord: string, after: string, manualDecision: string)

  lemma TargetKeywordsNonEmpty()
    ensures NonEmptyWords(TargetKeywords)
  {
  }

  /** The detail rows for a list of snippets of one PDF. */
  function SnippetRows(year: string, pdf: string, sn: seq<Snippet>): (r: seq<DetailRow>)
    ensures |r| == |sn|
    ensures forall i :: 0 <= i < |r| ==>
              r[i] == DetailRow(year, pdf, sn[i].before, sn[i].keyword, sn[i].matchedWord, sn[i].after, "")
  {
    seq(|sn|, i requires 0 <= i < |sn| =>
      DetailRow(year, pdf, sn[i].before, sn[i].keyword, sn[i].matchedWord, sn[i].after, ""))
  }

  /** The snippets of one file's text. */
  function FileSnippets(f: TextFile): seq<Snippet>
  {
    TargetKeywordsNonEmpty();
    GetKwicSnippets(f.text, TargetKeywords, ContextWindow)
  }

  /** The detail rows of one file: one row per snippet, in snippet order,
      each carrying the file's year and PDF name and that snippet's
      fields. */
  function FileRows(f: TextFile): (r: seq<DetailRow>)
    ensures |r| == |FileSnippets(f)|
    ensures forall i :: 0 <= i < |r| ==>
              var sn := FileSnippets(f)[i];
              && r[i].pdfName == PdfNameOf(f) && r[i].year == YearOf(PdfNameOf(f))
              && r[i].before == sn.before && r[i].keyword == sn.keyword
              && r[i].matchedWord == sn.matchedWord && r[i].after == sn.after
              && r[i].manualDecision == ""
    ensures forall i :: 0 <= i < |r| ==> r[i].keyword in TargetKeywords
  {
    var pdf := PdfNameOf(f);
    SnippetRows(YearOf(pdf), pdf, FileSnippets(f))
  }

  /** The rows of all files, in file order. */
  function AllRows(files: seq<TextFile>): (r: seq<DetailRow>)
    ensures forall x :: x in r <==> exists f :: f in files && x in FileRows(f)
  {
    ConcatMap(files, FileRows)
  }

  /** The rows of two runs of files, one after the other, are the rows of
      the first run followed by those of the second. */
  lemma AllRowsAppend(a: seq<TextFile>, b: seq<TextFile>)
    ensures AllRows(a + b) == AllRows(a) + AllRows(b)
  {
    ConcatMapAppend(a, b, FileRows);
  }

  /** Appending a file appends exactly its rows: every file contributes its
      rows as one block, in file order. */
  lemma AllRowsSnoc(files: seq<TextFile>, f: TextFile)
    ensures AllRows(files + [f]) == AllRows(files) + FileRows(f)
  {
    AllRowsAppend(files, [f]);
    assert ConcatMap([f], FileRows) == FileRows(f) + ConcatMap([f][1..], FileRows);
  }

  /** The sort key `(Year, pdf_name, keyword)`. */
  function DetailKey(r: DetailRow): seq<string>
  {
    [r.year, r.pdfName, r.keyword]
  }

  /** `kwic_data.sort(key=...)`: a permutation of the rows, ordered by
      year, then PDF name, then keyword. */
  function SortDetails(rows: seq<DetailRow>): (r: seq<DetailRow>)
    ensures multiset(r) == multiset(rows)
    ensures forall i, j :: 0 <= i < j < |r| ==> KeyLe(DetailKey(r[i]), DetailKey(r[j]))
  {
    SortBy(rows, DetailKey)
  }

  /** Python's sort is stable: rows with the same year, paper and keyword
      keep their extraction order, that is, their position in the text. */
  lemma SortDetailsStable(rows: seq<DetailRow>, k: seq<string>)
    ensures WithKey(SortDetails(rows), DetailKey, k) == WithKey(rows, DetailKey, k)
  {
    SortByStable(rows, DetailKey, k);
  }

  // ---------------------------------------------------------------------
  // Document frequency
  // ---------------------------------------------------------------------

  /** `df['pdf_name'].unique()`. */
  function Papers(rows: seq<DetailRow>): set<string>
  {
    set i | 0 <= i < |rows| :: rows[i].pdfName
  }

  /** `df[df['keyword'] == kw]['pdf_name'].unique()`. */
  function PapersWith(rows: seq<DetailRow>, kw: string): set<string>
  {
    set i | 0 <= i < |rows| && rows[i].keyword == kw :: rows[i].pdfName
  }

  /** A keyword's document count never exceeds the total paper count, and
      is zero exactly when no row carries the keyword. */
  lemma DocCountBound(rows: seq<DetailRow>, kw: string)
    ensures |PapersWith(rows, kw)| <= |Papers(rows)|
    ensures |PapersWith(rows, kw)| == 0 <==> forall i :: 0 <= i < |rows| ==> rows[i].keyword != kw
  {
    SubsetCardinality(PapersWith(rows, kw), Papers(rows));
    if exists i :: 0 <= i < |rows| && rows[i].keyword == kw {
      var i :| 0 <= i < |rows| && rows[i].keyword == kw;
      assert rows[i].pdfName in PapersWith(rows, kw);
    }
  }

  /** The IDF weight of a keyword: 0 when no paper mentions it, otherwise
      `log10(total / docs)`, kept as the two integer counts. */
  datatype Idf = ZeroWeight | Log10Ratio(total: nat, docs: nat)

  function IdfWeight(rows: seq<DetailRow>, kw: string): (w: Idf)
    ensures w.ZeroWeight? <==> forall i :: 0 <= i < |rows| ==> rows[i].keyword != kw
    ensures w.Log10Ratio? ==> 0 < w.docs <= w.total
    ensures w.Log10Ratio? ==> w.total == |Papers(rows)| && w.docs == |PapersWith(rows, kw)|
  {
    DocCountBound(rows, kw);
    var docs := |PapersWith(rows, kw)|;
    if docs > 0 then Log10Ratio(|Papers(rows)|, docs) else ZeroWeight
  }

  /** The weight's value is 0: the zero weight, or `log10(1)`. */
  predicate IsZeroWeight(w: Idf)
  {
    w.ZeroWeight? || w.total == w.docs
  }

  lemma {:induction false} EqualCardinalitySubset<T>(a: set<T>, b: set<T>)
    requires a <= b && |a| == |b|
    ensures a == b
  {
    if a != b {
      var x :| x in b && x !in a;
      SubsetCardinality(a, b - {x});
      assert false;
    }
  }

  /** The weight is 0 exactly when no paper mentions the keyword or every
      paper does. */
  lemma IdfZeroIff(rows: seq<DetailRow>, kw: string)
    ensures IsZeroWeight(IdfWeight(rows, kw)) <==> PapersWith(rows, kw) == {} || PapersWith(rows, kw) == Papers(rows)
  {
    DocCountBound(rows, kw);
    var w := IdfWeight(rows, kw);
    if w.Log10Ratio? && w.total == w.docs {
      EqualCardinalitySubset(PapersWith(rows, kw), Papers(rows));
    }
  }

  // ---------------------------------------------------------------------
  // Paper-level preview
  // ---------------------------------------------------------------------

  /** `s[-n:]`. */
  function LastN(s: string, n: nat): (r: string)
    ensures |r| == (if |s| < n then |s| else n)
    ensures r == s[|s| - |r|..]
  {
    if |s| <= n then s else s[|s| - n..]
  }

  /** `f"...{before[-60:]} [{word.upper()}] {after[:60]}..."`. */
  function SnippetText(before: string, word: string, after: string): (r: string)
    ensures StartsWith(r, "...") && EndsWith(r, "...")
    ensures |r| <= |word| + 130
    ensures OccursAt(" [" + Upper(word) + "] ", r, 3 + (if |before| < 60 then |before| else 60))
  {
    var a, m, c := LastN(before, 60), " [" + Upper(word) + "] ", Take(after, 60);
    MiddleOccurs("..." + a, m, c + "...");
    assert StartsWith("..." + a, "...") && EndsWith(c + "...", "...");
    assert "..." + a + m + (c + "...") == "..." + a + m + c + "...";
    "..." + a + m + c + "..."
  }

  /** `list(dict.fromkeys(snippets))[:8]`: at most eight distinct
      snippets, in order of first occurrence, all of them when there are
      fewer than eight. */
  function PreviewSnippets(snips: seq<string>): (p: seq<string>)
    ensures |p| <= 8 && NoDup(p)
    ensures forall x :: x in p ==> x in snips
    ensures |p| < 8 ==> forall x :: x in snips ==> x in p
    ensures forall i, j :: 0 <= i < j < |p| ==> IndexOf(snips, p[i]) < IndexOf(snips, p[j])
  {
    var d := Dedup(snips);
    var p := Take(d, 8);
    assert forall i :: 0 <= i < |p| ==> p[i] == d[i];
    p
  }

  /** A snippet left out of the preview first occurs after every snippet
      kept: the preview holds the earliest distinct ones. */
  lemma PreviewKeepsEarliest(snips: seq<string>, x: string, j: nat)
    requires x in snips && x !in PreviewSnippets(snips) && j < |PreviewSnippets(snips)|
    ensures IndexOf(snips, PreviewSnippets(snips)[j]) < IndexOf(snips, x)
  {
    var d := Dedup(snips);
    var p := PreviewSnippets(snips);
    assert p == d[..|p|];
    var q :| 0 <= q < |d| && d[q] == x;
    assert q >= |p|;
    assert p[j] == d[j];
  }

  /** The preview text of every row of a group, in row order. */
  function GroupSnippets(group: seq<DetailRow>): (snips: seq<string>)
    ensures |snips| == |group|
    ensures forall i :: 0 <= i < |group| ==>
              snips[i] == SnippetText(group[i].before, group[i].matchedWord, group[i].after)
  {
    seq(|group|, i requires 0 <= i < |group| =>
      SnippetText(group[i].before, group[i].matchedWord, group[i].after))
  }

  /** `aggregate_context(group)`: the previewed snippets, in
      first-occurrence order, joined by " \n\n " (see `PreviewSnippets`,
      `JoinSnoc`). It is empty exactly for an empty group, and shows every
      previewed snippet. */
  function AggregateContext(group: seq<DetailRow>): (r: string)
    ensures r == Join(PreviewSnippets(GroupSnippets(group)), " \n\n ")
    ensures r == "" <==> |group| == 0
    ensures forall x :: x in PreviewSnippets(GroupSnippets(group)) ==> Contains(r, x)
  {
    var p := PreviewSnippets(GroupSnippets(group));
    var r := Join(p, " \n\n ");
    assert forall x :: x in p ==> Contains(r, x) by {
      forall x | x in p ensures Contains(r, x) {
        var m :| 0 <= m < |p| && p[m] == x;
        JoinContainsPiece(p, " \n\n ", m);
      }
    }
    assert |group| > 0 ==> r != "" by {
      if |group| > 0 {
        assert GroupSnippets(group)[0] in GroupSnippets(group);
        assert |p| > 0;
        assert StartsWith(p[0], "...");
      }
    }
    r
  }

  /** Every row of a group with fewer than eight distinct snippets shows
      in the aggregated context. */
  lemma AggregateShowsPreview(group: seq<DetailRow>, k: nat)
    requires k < |group| && |PreviewSnippets(GroupSnippets(group))| < 8
    ensures Contains(AggregateContext(group), SnippetText(group[k].before, group[k].matchedWord, group[k].after))
  {
    assert GroupSnippets(group)[k] in GroupSnippets(group);
  }
}

=== FILE: metadata.dfy ===
/** One row of the paper table `nime_papers.csv`, as both the renaming
    script and the filter read it: every cell a string (the table is read
    with `dtype=str` and NA filtering off, and a missing column reads as
    ""). Both scripts key rows by the whitespace-stripped ID and skip rows
    whose stripped ID is empty. */
module Metadata {
  import opened Strings
  import opened Seqs

  datatype PaperRecord = PaperRecord(
    id: string,
    title: string,
    abstractText: string,
    keywords: string,
    url: string)

  /** `safe_str(row.get("ID")).strip()`. */
  function RowId(r: PaperRecord): string
  {
    Strip(r.id)
  }

  /** The index of the last row whose stripped ID is `id`, or -1: the row
      whose fields a later `meta[pdf_id] = ...` leaves in place. */
  function LastRowWithId(rows: seq<PaperRecord>, id: string): int
  {
    LastWhere(rows, (r: PaperRecord) => RowId(r) == id)
  }
}

=== FILE: paths.dfy ===
/** The path helpers both the renaming step and the KWIC step use:
    `os.path.basename` on a stripped URL and `pathlib`'s `Path.stem`, with
    POSIX rules. */
module Paths {
  import opened Strings
  import opened Seqs

  /** The position of the last `c` in `s`. */
  function LastIndexOfChar(s: string, c: char): (r: Option<nat>)
    ensures r.Some? ==> r.value < |s| && s[r.value] == c && forall k :: r.value < k < |s| ==> s[k] != c
    ensures r.None? ==> forall k :: 0 <= k < |s| ==> s[k] != c
  {
    if |s| == 0 then None
    else if s[|s| - 1] == c then Some(|s| - 1)
    else LastIndexOfChar(s[..|s| - 1], c)
  }

  /** POSIX `os.path.basename`: the part of a path after its last "/", or
      all of it when it has none. */
  function LastSegment(s: string): (r: string)
    ensures |r| <= |s| && r == s[|s| - |r|..]
    ensures forall k :: 0 <= k < |r| ==> r[k] != '/'
    ensures |r| < |s| ==> s[|s| - |r| - 1] == '/'
  {
    match LastIndexOfChar(s, '/')
    case None => s
    case Some(i) => s[i + 1..]
  }

  /** `basename_from_url`: the base name of the stripped URL. */
  function Basename(url: string): (r: string)
    ensures exists u: string, lo: nat :: StrippedAt(url, u, lo) && EndsWith(u, r) && '/' !in r && (|r| < |u| ==> u[|u| - |r| - 1] == '/')
  {
    LastSegment(Strip(url))
  }

  /** `Path(name).stem`: the name without its final suffix, where a suffix
      starts at the last "." provided that dot is neither the first nor the
      last character. */
  function Stem(name: string): (r: string)
    ensures |r| <= |name| && r == name[..|r|]
    ensures r != name ==>
              && 0 < |r| < |name| - 1 && name[|r|] == '.'
              && forall k :: |r| < k < |name| ==> name[k] != '.'
    ensures r == name ==>
              forall k :: 0 < k < |name| - 1 && name[k] == '.' ==> exists m :: k < m < |name| && name[m] == '.'
  {
    match LastIndexOfChar(name, '.')
    case None => name
    case Some(i) => if 0 < i < |name| - 1 then name[..i] else name
  }

  /** The stem of "{x}.pdf" is `x`, for a non-empty `x`. */
  lemma StemOfPdf(x: string)
    requires |x| > 0
    ensures Stem(x + ".pdf") == x
  {
    var n := x + ".pdf";
    assert n[|x|] == '.' && n[|x| + 1] != '.' && n[|x| + 2] != '.' && n[|x| + 3] != '.';
    assert LastIndexOfChar(n, '.') == Some(|x|);
  }
}

=== FILE: references.dfy ===
/** `remove_references_section`: the text is cut at the greatest start of
    a References or Citations header line that `re.finditer` reports on the
    lowered text, provided that start is past position 0. */
module References {
  import opened Strings
  import opened Seqs
  import opened Regex

  const ReferencesHeader: Pattern := HeaderLine("references")
  const CitationsHeader: Pattern := HeaderLine("citations")

  /** The header matches reported for the references pattern, then for the
      citations pattern, in the order the loop visits them. */
  function HeaderSpans(lowered: string): seq<Span>
  {
    FindIter(ReferencesHeader, lowered, 0) + FindIter(CitationsHeader, lowered, 0)
  }

  /** `last_pos` after the loop: starting from `acc`, each start greater
      than the current value replaces it. */
  function LastStart(spans: seq<Span>, acc: int): (r: int)
    ensures r >= acc
    ensures forall k :: 0 <= k < |spans| ==> spans[k].start <= r
    ensures r == acc || exists k :: 0 <= k < |spans| && spans[k].start == r
  {
    if |spans| == 0 then acc
    else
      var next := if spans[0].start > acc then spans[0].start else acc;
      var r := LastStart(spans[1..], next);
      assert r != acc && r == next ==> spans[0].start == r;
      assert r != next ==> exists k :: 0 <= k < |spans[1..]| && spans[1..][k].start == r;
      r
  }

  /** `t[i..]` begins with a header line of the word `w`. */
  ghost predicate HeaderOf(t: string, i: nat, w: string)
  {
    exists p: nat, q: nat :: HeaderParts(t, i, w, p, q)
  }

  /** `t[i..]` begins with a References or Citations header line. */
  ghost predicate HeaderLineAt(t: string, i: nat)
  {
    HeaderOf(t, i, "references") || HeaderOf(t, i, "citations")
  }

  /** `last_pos` when the text is non-empty and `last_pos > 0`: the
      greatest reported header start, which then lies on a header line. */
  function CutPoint(text: string): (c: Option<nat>)
    ensures c.None? <==> forall k :: 0 <= k < |HeaderSpans(Lower(text))| ==> HeaderSpans(Lower(text))[k].start == 0
    ensures c.Some? ==> 0 < c.value < |text| && HeaderLineAt(Lower(text), c.value)
    ensures c.Some? ==> forall k :: 0 <= k < |HeaderSpans(Lower(text))| ==> HeaderSpans(Lower(text))[k].start <= c.value
    ensures c.Some? ==> exists k :: 0 <= k < |HeaderSpans(Lower(text))| && HeaderSpans(Lower(text))[k].start == c.value
  {
    if |text| == 0 then
      assert HeaderSpans(Lower(text)) == [];
      None
    else
      var lowered := Lower(text);
      var spans := HeaderSpans(lowered);
      var last := LastStart(spans, -1);
      if last > 0 then
        assert last < |text| && HeaderLineAt(lowered, last) by {
          var k :| 0 <= k < |spans| && spans[k].start == last;
          CutIsHeader(lowered, k);
        }
        Some(last)
      else
        None
  }

  /** `remove_references_section(text)`. The result is a prefix of the
      text; it is the whole text exactly when no header is reported past
      position 0; otherwise the cut-off part begins with a header line
      (compared case-insensitively) and no reported header starts after
      the cut. */
  function RemoveReferences(text: string): (r: string)
    ensures |r| <= |text| && r == text[..|r|]
    ensures r == text <==> forall k :: 0 <= k < |HeaderSpans(Lower(text))| ==> HeaderSpans(Lower(text))[k].start == 0
    ensures |r| < |text| ==> HeaderLineAt(Lower(text), |r|)
    ensures |r| < |text| ==> forall k :: 0 <= k < |HeaderSpans(Lower(text))| ==> HeaderSpans(Lower(text))[k].start <= |r|
    ensures |r| < |text| ==> exists k :: 0 <= k < |HeaderSpans(Lower(text))| && HeaderSpans(Lower(text))[k].start == |r|
  {
    match CutPoint(text)
    case None => text
    case Some(c) => text[..c]
  }

  /** A header reported by `finditer` for the word `w` lies on a header
      line of `w`. */
  lemma FoundHeaderIsLine(w: string, lowered: string, k: nat)
    requires w == "references" || w == "citations"
    requires k < |FindIter(HeaderLine(w), lowered, 0)|
    ensures HeaderOf(lowered, FindIter(HeaderLine(w), lowered, 0)[k].start, w)
  {
    var sp := FindIter(HeaderLine(w), lowered, 0)[k];
    assert HeaderMatchAt(w, lowered, sp.start) == Some(sp.end);
    HeaderMatchSound(w, lowered, sp.start);
  }

  /** A reported header start lies on a header line, and inside the text. */
  lemma CutIsHeader(lowered: string, k: nat)
    requires k < |HeaderSpans(lowered)|
    ensures HeaderSpans(lowered)[k].start < |lowered|
    ensures HeaderLineAt(lowered, HeaderSpans(lowered)[k].start)
  {
    var refs := FindIter(HeaderLine("references"), lowered, 0);
    var cits := FindIter(HeaderLine("citations"), lowered, 0);
    assert HeaderSpans(lowered) == refs + cits;
    if k < |refs| {
      assert HeaderSpans(lowered)[k] == refs[k];
      FoundHeaderIsLine("references", lowered, k);
    } else {
      assert HeaderSpans(lowered)[k] == cits[k - |refs|];
      FoundHeaderIsLine("citations", lowered, k - |refs|);
    }
  }

  /** A text with two References lines in a row. */
  const TwoHeaders: string := "x\nReferences\nReferences\n"

  /** The shape of `TwoHeaders` lowered: "x", then "\nreferences" twice,
      then a line feed. */
  predicate TwoHeadersShape(t: string)
  {
    && |t| == 24 && t[0] == 'x' && t[1] == '\n' && t[12] == '\n' && t[23] == '\n'
    && OccursAt("references", t, 2) && OccursAt("references", t, 13)
  }

  lemma TwoHeadersLower()
    ensures TwoHeadersShape(Lower(TwoHeaders))
  {
    var t := Lower(TwoHeaders);
    var w := "references";
    assert t == "x\n" + w + "\n" + w + "\n";
    assert t[2..12] == w;
    assert t[13..23] == w;
  }

  lemma NoLeadingSpace(s: string)
    requires |s| > 0 && !IsSpace(s[0])
    ensures LeadingSpaces(s) == 0
  {
  }

  /** Inside either copy of the word there is neither whitespace nor a
      line feed. */
  lemma ShapeWordChars(t: string, j: nat)
    requires TwoHeadersShape(t) && (2 <= j < 12 || 13 <= j < 23)
    ensures !IsSpace(t[j]) && t[j] != '\n'
    ensures t[j] == 'r' <==> j == 2 || j == 6 || j == 13 || j == 17
  {
    var w := "references";
    if j < 12 {
      OccursAtIndex(w, t, 2, j - 2);
    } else {
      OccursAtIndex(w, t, 13, j - 13);
    }
  }

  lemma ShapeFirstMatch(t: string)
    requires TwoHeadersShape(t)
    ensures HeaderMatchAt("references", t, 0).None?
    ensures HeaderMatchAt("references", t, 1) == Some(13)
    ensures HeaderParts(t, 12, "references", 13, 23)
  {
    var w := "references";
    ShapeWordChars(t, 2);
    ShapeWordChars(t, 13);
    NoLeadingSpace(t[2..]);
    assert HeaderParts(t, 1, w, 2, 12);
    HeaderMatchComplete(w, t, 1, 2, 12);
    HeaderMatchSound(w, t, 1);
    assert HeaderParts(t, 12, w, 13, 23);
  }

  /** No header line of `w` starts at or after `from`, where `from` is 13
      for References and 0 for Citations. */
  lemma ShapeNoMatchAfter(t: string, w: string, from: nat)
    requires TwoHeadersShape(t)
    requires w == "references" || w == "citations"
    requires from == 13 || (from == 0 && w == "citations")
    ensures forall j: nat :: from <= j < |t| ==> HeaderMatchAt(w, t, j).None?
  {
    forall j: nat | from <= j < |t| ensures HeaderMatchAt(w, t, j).None? {
      if j == 1 || j == 12 {
        ShapeWordChars(t, j + 1);
        NoLeadingSpace(t[j + 1..]);
        assert w[0] == 'c';
        assert !OccursAt(w, t, j + 1);
      } else if j == 23 {
        assert !OccursAt(w, t, 24);
      } else if 2 <= j < 12 || 13 <= j < 23 {
        ShapeWordChars(t, j);
      }
    }
  }

  /** The only header `finditer` reports in such a text is the References
      line at 1. */
  lemma ShapeSpans(t: string)
    requires TwoHeadersShape(t)
    ensures HeaderSpans(t) == [Span(1, 13)]
  {
    ShapeFirstMatch(t);
    FindIterStep(ReferencesHeader, t, 1);
    FindIterSkip(ReferencesHeader, t, 0);
    ShapeNoMatchAfter(t, "references", 13);
    FindIterNone(ReferencesHeader, t, 13);
    ShapeNoMatchAfter(t, "citations", 0);
    FindIterNone(CitationsHeader, t, 0);
  }

  /** `finditer` does not report a header line whose leading line feed
      ended the previous match: in "x\nReferences\nReferences\n" the first
      match runs from 1 to 13, taking the line feed at 12, so the header
      line at 12 is skipped and the text is cut at 1, not 12. */
  lemma SkippedHeaderExample()
    ensures HeaderLineAt(Lower(TwoHeaders), 12)
    ensures RemoveReferences(TwoHeaders) == "x"
  {
    TwoHeadersLower();
    ShapeFirstMatch(Lower(TwoHeaders));
    ShapeSpans(Lower(TwoHeaders));
    assert LastStart([Span(1, 13)], -1) == 1;
  }
}

=== FILE: regex.dfy ===
/** The two regular-expression shapes the scripts use, evaluated with the
    semantics of Python's `re` module over ASCII text: a match is tried at
    each position from left to right, alternatives are tried in the order
    written (greedy `?` first), and `re.finditer` resumes after the end of
    each match, so matches never overlap. */
module Regex {
  import opened Strings
  import opened Seqs

  datatype Pattern =
      /** `\n\s*WORD\s*\n`: WORD alone on its own line. */
    | HeaderLine(word: string)
      /** `\bWORD(S1|S2|...)?\b`: WORD as a whole word, optionally followed
          by one of the suffixes. */
    | WholeWord(word: string, suffixes: seq<string>)

  /** The patterns the scripts build: a non-empty word, and for headers a
      word that does not start with whitespace. */
  predicate ValidPattern(p: Pattern)
  {
    match p
    case HeaderLine(w) => |w| > 0 && !IsSpace(w[0])
    case WholeWord(w, _) => |w| > 0
  }

  datatype Span = Span(start: nat, end: nat)

  /** `\b` at position `i`: exactly one side is a word character. */
  predicate Boundary(t: string, i: nat)
    requires i <= |t|
  {
    (i > 0 && IsWordChar(t[i - 1])) != (i < |t| && IsWordChar(t[i]))
  }

  predicate AllSpace(t: string, a: nat, b: nat)
    requires a <= b <= |t|
  {
    forall k :: a <= k < b ==> IsSpace(t[k])
  }

  /** The first `n` characters of the whitespace run at `a` are all
      whitespace. */
  lemma SpaceRun(t: string, a: nat, n: nat)
    requires a <= |t| && n <= LeadingSpaces(t[a..])
    ensures a + n <= |t| && AllSpace(t, a, a + n)
  {
    forall j | a <= j < a + n ensures IsSpace(t[j]) {
      assert t[j] == t[a..][j - a];
    }
  }

  /** The position of the last line feed in `s`. */
  function LastNewline(s: string): (r: Option<nat>)
    ensures r.Some? ==> r.value < |s| && s[r.value] == '\n'
    ensures r.Some? ==> forall j :: r.value < j < |s| ==> s[j] != '\n'
    ensures r.None? ==> forall j :: 0 <= j < |s| ==> s[j] != '\n'
  {
    if |s| == 0 then None
    else if s[|s| - 1] == '\n' then Some(|s| - 1)
    else LastNewline(s[..|s| - 1])
  }

  /** `\n\s*WORD\s*\n` tried at `i`. The leading `\s*` can only take the
      whole whitespace run (WORD does not start with whitespace); the
      trailing `\s*` is greedy and gives characters back until a line feed
      follows, so the match ends just after the last line feed of the
      whitespace run after WORD. */
  function HeaderMatchAt(w: string, t: string, i: nat): (r: Option<nat>)
    ensures r.Some? ==> i < r.value <= |t|
  {
    if i < |t| && t[i] == '\n' then
      var p := i + 1 + LeadingSpaces(t[i + 1..]);
      if OccursAt(w, t, p) then
        var q := p + |w|;
        var run := LeadingSpaces(t[q..]);
        match LastNewline(t[q..q + run])
        case Some(k) => Some(q + k + 1)
        case None => None
      else None
    else None
  }

  /** Suffix `s` stands at `j` and is followed by a word boundary. */
  predicate SuffixFits(t: string, j: nat, s: string)
  {
    OccursAt(s, t, j) && Boundary(t, j + |s|)
  }

  /** The index of the first alternative, from `k` on, that fits at `j`:
      the alternative the backtracking engine settles on. */
  function FirstSuffix(t: string, j: nat, alts: seq<string>, k: nat): (r: Option<nat>)
    ensures r.Some? ==> k <= r.value < |alts| && SuffixFits(t, j, alts[r.value])
    ensures r.Some? ==> forall l :: k <= l < r.value ==> !SuffixFits(t, j, alts[l])
    ensures r.None? ==> forall l :: k <= l < |alts| ==> !SuffixFits(t, j, alts[l])
    decreases |alts| - k
  {
    if k >= |alts| then None
    else if SuffixFits(t, j, alts[k]) then Some(k)
    else FirstSuffix(t, j, alts, k + 1)
  }

  /** The suffix alternatives in the order the engine tries them: the
      group first, then skipping the optional group. */
  function Alternatives(suffixes: seq<string>): seq<string>
  {
    suffixes + [""]
  }

  function WholeWordMatchAt(w: string, sfx: seq<string>, t: string, i: nat): (r: Option<nat>)
    requires |w| > 0
    ensures r.Some? ==> i < r.value <= |t|
  {
    if OccursAt(w, t, i) && Boundary(t, i) then
      match FirstSuffix(t, i + |w|, Alternatives(sfx), 0)
      case Some(m) => Some(i + |w| + |Alternatives(sfx)[m]|)
      case None => None
    else None
  }

  /** The end of the match of `p` starting at `i`, if the pattern matches there. */
  function MatchAt(p: Pattern, t: string, i: nat): (r: Option<nat>)
    requires ValidPattern(p)
    ensures r.Some? ==> i < r.value <= |t|
  {
    match p
    case HeaderLine(w) => HeaderMatchAt(w, t, i)
    case WholeWord(w, sfx) => WholeWordMatchAt(w, sfx, t, i)
  }

  /** The scan `re.finditer` performs, for any matcher: `m(i)` is the end
      of the match tried at position `i` of a text of length `n`, if the
      pattern matches there. A match is reported and the scan resumes at its
      end; otherwise the scan moves on by one position. */
  function Scan(m: nat -> Option<nat>, n: nat, from: nat): (r: seq<Span>)
    requires forall i: nat :: m(i).Some? ==> i < m(i).value <= n
    ensures forall k :: 0 <= k < |r| ==>
              from <= r[k].start < r[k].end <= n && m(r[k].start) == Some(r[k].end)
    ensures forall k :: 0 <= k < |r| - 1 ==> r[k].end <= r[k + 1].start
    decreases n - from
  {
    if from >= n then []
    else
      match m(from)
      case Some(e) => [Span(from, e)] + Scan(m, n, e)
      case None => Scan(m, n, from + 1)
  }

  /** Some span of `r` contains position `i`. */
  predicate Covers(r: seq<Span>, i: nat)
  {
    exists k :: 0 <= k < |r| && r[k].start <= i < r[k].end
  }

  /** The scan misses no match: every position where the matcher succeeds,
      from `from` on, lies inside a reported span. */
  lemma {:induction false} ScanComplete(m: nat -> Option<nat>, n: nat, from: nat, i: nat)
    requires forall i: nat :: m(i).Some? ==> i < m(i).value <= n
    requires from <= i && m(i).Some?
    ensures Covers(Scan(m, n, from), i)
    decreases n - from
  {
    var r := Scan(m, n, from);
    if from >= n {
      assert false;
    }
    match m(from)
    case Some(e) =>
      assert r == [Span(from, e)] + Scan(m, n, e);
      if i < e {
        assert r[0].start <= i < r[0].end;
      } else {
        ScanComplete(m, n, e, i);
        var r' := Scan(m, n, e);
        var k :| 0 <= k < |r'| && r'[k].start <= i < r'[k].end;
        assert r[k + 1] == r'[k];
      }
    case None =>
      ScanComplete(m, n, from + 1, i);
  }

  /** With no match from `from` on, the scan reports nothing. */
  lemma {:induction false} ScanNone(m: nat -> Option<nat>, n: nat, from: nat)
    requires forall i: nat :: m(i).Some? ==> i < m(i).value <= n
    requires forall j: nat :: from <= j < n ==> m(j).None?
    ensures Scan(m, n, from) == []
    decreases n - from
  {
    if from < n {
      ScanNone(m, n, from + 1);
    }
  }

  /** The spans `re.finditer(p, t)` reports from position `from` on: the
      scan resumes inside `t`, so `\b` at `from` still sees `t[from - 1]`. */
  function FindIter(p: Pattern, t: string, from: nat): (r: seq<Span>)
    requires ValidPattern(p)
    ensures forall k :: 0 <= k < |r| ==>
              from <= r[k].start < r[k].end <= |t| && MatchAt(p, t, r[k].start) == Some(r[k].end)
    ensures forall k :: 0 <= k < |r| - 1 ==> r[k].end <= r[k + 1].start
  {
    Scan((j: nat) => MatchAt(p, t, j), |t|, from)
  }

  /** Every position where the pattern matches is inside one of the spans
      `finditer` reports: together with the contract of `FindIter`, each
      span starts at the leftmost match not inside an earlier span. */
  lemma FindIterComplete(p: Pattern, t: string, from: nat, i: nat)
    requires ValidPattern(p)
    requires from <= i && MatchAt(p, t, i).Some?
    ensures Covers(FindIter(p, t, from), i)
  {
    ScanComplete((j: nat) => MatchAt(p, t, j), |t|, from, i);
  }

  /** With no match from `from` on, `finditer` reports nothing. */
  lemma FindIterNone(p: Pattern, t: string, from: nat)
    requires ValidPattern(p)
    requires forall j: nat :: from <= j < |t| ==> MatchAt(p, t, j).None?
    ensures FindIter(p, t, from) == []
  {
    ScanNone((j: nat) => MatchAt(p, t, j), |t|, from);
  }

  /** A match at `from` is reported, and the scan resumes at its end. */
  lemma FindIterStep(p: Pattern, t: string, from: nat)
    requires ValidPattern(p) && MatchAt(p, t, from).Some?
    ensures FindIter(p, t, from) == [Span(from, MatchAt(p, t, from).value)] + FindIter(p, t, MatchAt(p, t, from).value)
  {
  }

  /** Where nothing matches, the scan moves on by one position. */
  lemma FindIterSkip(p: Pattern, t: string, from: nat)
    requires ValidPattern(p) && from < |t| && MatchAt(p, t, from).None?
    ensures FindIter(p, t, from) == FindIter(p, t, from + 1)
  {
  }

  /** `re.search(p, t) is not None`. */
  function Search(p: Pattern, t: string): (b: bool)
    requires ValidPattern(p)
    ensures b <==> exists i: nat :: MatchAt(p, t, i).Some?
  {
    var r := FindIter(p, t, 0);
    if |r| > 0 then
      assert MatchAt(p, t, r[0].start).Some?;
      true
    else
      assert forall i: nat :: MatchAt(p, t, i).None? by {
        forall i: nat | MatchAt(p, t, i).Some? ensures false {
          FindIterComplete(p, t, 0, i);
        }
      }
      false
  }

  // ---------------------------------------------------------------------
  // Declarative readings of the two shapes
  // ---------------------------------------------------------------------

  /** `t[i..]` starts with a line feed, whitespace up to `p`, WORD, then
      whitespace up to a line feed at `q`. */
  predicate HeaderParts(t: string, i: nat, w: string, p: nat, q: nat)
  {
    && i < p && p + |w| <= q < |t|
    && t[i] == '\n'
    && AllSpace(t, i + 1, p)
    && OccursAt(w, t, p)
    && AllSpace(t, p + |w|, q)
    && t[q] == '\n'
  }

  /** Where WORD starts when the header pattern is tried at `i`. */
  function HeaderWordStart(t: string, i: nat): nat
    requires i < |t|
  {
    i + 1 + LeadingSpaces(t[i + 1..])
  }

  /** A header match at `i` covers a header line of `t` that ends with the
      last character of the match, and that character is the last line
      feed of the whitespace run after the word: greedy `\s*` gives back
      only what the final `\n` needs. */
  lemma HeaderMatchSound(w: string, t: string, i: nat)
    requires HeaderMatchAt(w, t, i).Some?
    ensures HeaderParts(t, i, w, HeaderWordStart(t, i), HeaderMatchAt(w, t, i).value - 1)
    ensures forall j ::
              (HeaderMatchAt(w, t, i).value <= j < |t| && HeaderWordStart(t, i) + |w| <= j &&
               AllSpace(t, HeaderWordStart(t, i) + |w|, j + 1)) ==> t[j] != '\n'
  {
    var p := HeaderWordStart(t, i);
    var q := p + |w|;
    var run := LeadingSpaces(t[q..]);
    var k := LastNewline(t[q..q + run]).value;
    assert t[q + k] == t[q..q + run][k];
    SpaceRun(t, i + 1, p - i - 1);
    SpaceRun(t, q, k);
    forall j | q + k + 1 <= j < |t| && q <= j && AllSpace(t, q, j + 1) ensures t[j] != '\n' {
      assert j < q + run by {
        if q + run < |t| {
          assert t[q + run] == t[q..][run];
        }
      }
      assert t[j] == t[q..q + run][j - q];
    }
  }

  /** Any header line of `t` starting at `i` is found by the pattern. */
  lemma HeaderMatchComplete(w: string, t: string, i: nat, p: nat, q: nat)
    requires |w| > 0 && !IsSpace(w[0])
    requires HeaderParts(t, i, w, p, q)
    ensures HeaderMatchAt(w, t, i).Some?
  {
    var p0 := HeaderWordStart(t, i);
    if p0 != p {
      assert false;
    }
    var q0 := p + |w|;
    var run := LeadingSpaces(t[q0..]);
    if q0 + run <= q {
      assert false;
    }
    assert t[q0..q0 + run][q - q0] == '\n';
  }

  /** The header pattern matches at `i` exactly when `t[i..]` starts with a
      header line. */
  lemma HeaderMatchShape(w: string, t: string, i: nat)
    requires |w| > 0 && !IsSpace(w[0])
    ensures HeaderMatchAt(w, t, i).Some? <==> exists p: nat, q: nat :: HeaderParts(t, i, w, p, q)
  {
    if HeaderMatchAt(w, t, i).Some? {
      HeaderMatchSound(w, t, i);
    } else {
      forall p: nat, q: nat | HeaderParts(t, i, w, p, q) ensures false {
        HeaderMatchComplete(w, t, i, p, q);
      }
    }
  }

  /** `t` holds WORD followed by suffix `s` as a whole word at `i`. */
  predicate WordAt(t: string, i: nat, w: string, s: string)
  {
    OccursAt(w, t, i) && Boundary(t, i) && SuffixFits(t, i + |w|, s)
  }

  /** The whole-word pattern matches at `i` exactly when WORD followed by
      one of the alternatives stands there as a whole word; the match takes
      the first such alternative in the order written. */
  lemma WholeWordMatchShape(w: string, sfx: seq<string>, t: string, i: nat)
    requires |w| > 0
    ensures WholeWordMatchAt(w, sfx, t, i).Some? <==>
              exists s :: s in Alternatives(sfx) && WordAt(t, i, w, s)
    ensures WholeWordMatchAt(w, sfx, t, i).Some? ==>
              exists k :: 0 <= k < |Alternatives(sfx)| && WordAt(t, i, w, Alternatives(sfx)[k]) &&
                WholeWordMatchAt(w, sfx, t, i).value == i + |w| + |Alternatives(sfx)[k]|
  {
    var alts := Alternatives(sfx);
    if OccursAt(w, t, i) && Boundary(t, i) {
      var m := FirstSuffix(t, i + |w|, alts, 0);
      if m.Some? {
        assert WordAt(t, i, w, alts[m.value]);
      } else {
        forall s | s in alts && WordAt(t, i, w, s) ensures false {
        }
      }
    }
  }

  lemma OccursAtConcat(a: string, b: string, t: string, i: nat)
    ensures OccursAt(a + b, t, i) <==> OccursAt(a, t, i) && OccursAt(b, t, i + |a|)
  {
    if OccursAt(a, t, i) && OccursAt(b, t, i + |a|) {
      assert t[i..i + |a| + |b|] == t[i..i + |a|] + t[i + |a|..i + |a| + |b|];
    }
    if OccursAt(a + b, t, i) {
      assert t[i..i + |a|] == (a + b)[..|a|];
      assert t[i + |a|..i + |a| + |b|] == (a + b)[|a|..];
    }
  }
}

=== FILE: rename.dfy ===
/** The renaming step: every downloaded PDF is matched to a paper ID, first
    by its file name against the base names of the paper table's URLs, then
    by its stem against the table's IDs; a matched PDF is copied to
    `Matched/` as "{ID}.pdf" (or "{ID}_{n}.pdf" for the first free `n` when
    that name is taken), an unmatched one to `Unmatched/` under its own
    name. */
module Rename {
  import opened Strings
  import opened Seqs
  import opened Metadata
  import opened Sorting
  import opened Paths

  // ---------------------------------------------------------------------
  // The two lookups built from the paper table
  // ---------------------------------------------------------------------

  /** `url_to_id` (URL base name to ID) and `id_set`. */
  datatype Lookup = Lookup(urlToId: map<string, string>, ids: set<string>)

  /** The URL base name of a row. */
  function UrlName(row: PaperRecord): string
  {
    Basename(row.url)
  }

  /** The row gives the name `n` a mapping, with `name` computing each
      row's name: its ID is non-empty, its name is `n`, and `n` ends with
      ".pdf". */
  predicate MapsVia(row: PaperRecord, name: PaperRecord -> string, n: string)
  {
    RowId(row) != "" && name(row) == n && EndsWith(n, ".pdf")
  }

  /** The last row that maps `n`, or -1. */
  function LastMapsRow(rows: seq<PaperRecord>, name: PaperRecord -> string, n: string): int
  {
    LastWhere(rows, (r: PaperRecord) => MapsVia(r, name, n))
  }

  /** The row gives the URL base name `n` a mapping. */
  predicate MapsUrl(row: PaperRecord, n: string)
  {
    MapsVia(row, UrlName, n)
  }

  /** The last row that maps the base name `n`, or -1. */
  function LastUrlRow(rows: seq<PaperRecord>, n: string): int
  {
    LastMapsRow(rows, UrlName, n)
  }

  /** `id_set` after the first loop of `main`: every non-empty stripped
      ID. */
  function BuildIds(rows: seq<PaperRecord>): (ids: set<string>)
    ensures forall id :: id in ids <==> id != "" && LastRowWithId(rows, id) >= 0
  {
    if |rows| == 0 then {}
    else
      var id := RowId(rows[|rows| - 1]);
      BuildIds(rows[..|rows| - 1]) + (if id == "" then {} else {id})
  }

  /** The map the first loop of `main` builds from the rows' names: each
      row that maps its name sets it to the row's ID, a later row
      overwriting an earlier one. */
  function NameMap(rows: seq<PaperRecord>, name: PaperRecord -> string): (m: map<string, string>)
    ensures forall n :: n in m <==> LastMapsRow(rows, name, n) >= 0
    ensures forall n :: n in m ==> m[n] == RowId(rows[LastMapsRow(rows, name, n)])
  {
    if |rows| == 0 then map[]
    else
      var row := rows[|rows| - 1];
      var m := NameMap(rows[..|rows| - 1], name);
      if MapsVia(row, name, name(row)) then m[name(row) := RowId(row)] else m
  }

  /** `url_to_id` after the first loop of `main`: the URL base name of each
      row with a non-empty ID, when it ends with ".pdf", maps to that ID,
      a later row overwriting an earlier one. */
  function BuildUrlMap(rows: seq<PaperRecord>): (m: map<string, string>)
    ensures forall n :: n in m <==> LastUrlRow(rows, n) >= 0
    ensures forall n :: n in m ==> m[n] == RowId(rows[LastUrlRow(rows, n)])
  {
    NameMap(rows, UrlName)
  }

  /** The first loop of `main`, which fills both lookups in one pass. */
  function BuildLookup(rows: seq<PaperRecord>): Lookup
  {
    Lookup(BuildUrlMap(rows), BuildIds(rows))
  }

  /** Every name the table maps ends with ".pdf", and every ID it maps to
      is a non-empty member of `id_set`. */
  lemma BuildLookupWellFormed(rows: seq<PaperRecord>, n: string)
    requires n in BuildLookup(rows).urlToId
    ensures EndsWith(n, ".pdf")
    ensures BuildLookup(rows).urlToId[n] in BuildLookup(rows).ids
    ensures BuildLookup(rows).urlToId[n] != ""
  {
    var k := LastUrlRow(rows, n);
    assert MapsUrl(rows[k], n);
  }

  // ---------------------------------------------------------------------
  // Matching one file
  // ---------------------------------------------------------------------

  /** How a file was matched: `url` or `id_direct` in the `method` column
      of `rename_map.csv`. */
  datatype MatchMethod = ByUrl | ByIdDirect

  datatype Match = Match(id: string, how: MatchMethod)

  /** The two matching methods in order: the file name among the URL base
      names, else the stem among the IDs. */
  function MatchFile(name: string, l: Lookup): (r: Option<Match>)
    ensures name in l.urlToId ==> r == Some(Match(l.urlToId[name], ByUrl))
    ensures name !in l.urlToId ==> (r.Some? <==> Stem(name) in l.ids)
    ensures name !in l.urlToId && r.Some? ==> r.value == Match(Stem(name), ByIdDirect)
  {
    if name in l.urlToId then Some(Match(l.urlToId[name], ByUrl))
    else if Stem(name) in l.ids then Some(Match(Stem(name), ByIdDirect))
    else None
  }

  /** `if matched_id:` — a match counts only when its ID is non-empty. */
  predicate IsMatched(l: Lookup, name: string)
  {
    var m := MatchFile(name, l);
    m.Some? && m.value.id != ""
  }

  /** With a lookup built from the table, the emptiness test never rejects
      a match: the table's IDs are non-empty. */
  lemma MatchedIdNonEmpty(rows: seq<PaperRecord>, name: string)
    ensures IsMatched(BuildLookup(rows), name) <==> MatchFile(name, BuildLookup(rows)).Some?
  {
    var l := BuildLookup(rows);
    if name in l.urlToId {
      BuildLookupWellFormed(rows, name);
    }
  }

  /** A PubPub file named "{ID}.pdf" matches its own ID by stem when no
      URL names it. */
  lemma PubPubFileMatchesId(rows: seq<PaperRecord>, id: string)
    requires id in BuildLookup(rows).ids
    requires id + ".pdf" !in BuildLookup(rows).urlToId
    ensures MatchFile(id + ".pdf", BuildLookup(rows)) == Some(Match(id, ByIdDirect))
  {
    StemOfPdf(id);
  }

  // ---------------------------------------------------------------------
  // Destination names
  // ---------------------------------------------------------------------

  /** The `k`-th name tried for `id`: "{id}.pdf", then "{id}_1.pdf",
      "{id}_2.pdf", ... */
  function CandidateName(id: string, k: nat): string
  {
    if k == 0 then id + ".pdf" else id + "_" + NatToString(k) + ".pdf"
  }

  /** Only the first attempt has no numeric part. */
  lemma CandidateLength(id: string, k: nat)
    ensures |CandidateName(id, k)| == |id| + 4 <==> k == 0
  {
  }

  /** Different attempts give different names. */
  lemma CandidateInjective(id: string, j: nat, k: nat)
    requires CandidateName(id, j) == CandidateName(id, k)
    ensures j == k
  {
    CandidateLength(id, j);
    CandidateLength(id, k);
    if j != 0 && k != 0 {
      var a, b := CandidateName(id, j), CandidateName(id, k);
      var sj, sk := NatToString(j), NatToString(k);
      assert |sj| == |sk|;
      assert sj == a[|id| + 1..|id| + 1 + |sj|];
      assert sk == b[|id| + 1..|id| + 1 + |sk|];
      NatToStringInjective(j, k);
    }
  }

  /** `dest` is the first candidate for `id` not in `taken`. */
  ghost predicate FirstFree(id: string, taken: set<string>, dest: string)
  {
    && dest !in taken
    && exists k: nat :: dest == CandidateName(id, k) && forall j: nat :: j < k ==> CandidateName(id, j) in taken
  }

  /** The duplicate-handling loop: try "{id}.pdf", then "{id}_1.pdf", and
      so on until the name is free. */
  method ChooseDest(id: string, taken: set<string>) returns (dest: string)
    ensures FirstFree(id, taken, dest)
  {
    var k: nat := 0;
    dest := CandidateName(id, 0);
    ghost var tried: set<string> := {};
    while dest in taken
      invariant dest == CandidateName(id, k)
      invariant forall j: nat :: j < k ==> CandidateName(id, j) in tried
      invariant forall x :: x in tried ==> exists j: nat :: j < k && x == CandidateName(id, j)
      invariant tried <= taken
      invariant |tried| == k
      decreases |taken| - |tried|
    {
      if dest in tried {
        var j: nat :| j < k && dest == CandidateName(id, j);
        CandidateInjective(id, j, k);
        assert false;
      }
      SubsetCardinality(tried + {dest}, taken);
      tried := tried + {dest};
      k := k + 1;
      dest := CandidateName(id, k);
    }
  }

  // ---------------------------------------------------------------------
  // The renaming loop
  // ---------------------------------------------------------------------

  /** One row of `rename_map.csv`. */
  datatype Renamed = Renamed(original: string, newName: string, id: string, how: MatchMethod)

  function Originals(rs: seq<Renamed>): (r: seq<string>)
    ensures |r| == |rs| && forall i :: 0 <= i < |rs| ==> r[i] == rs[i].original
  {
    seq(|rs|, i requires 0 <= i < |rs| => rs[i].original)
  }

  function NewNames(rs: seq<Renamed>): set<string>
  {
    set i | 0 <= i < |rs| :: rs[i].newName
  }

  lemma NewNamesSnoc(rs: seq<Renamed>, rec: Renamed)
    ensures NewNames(rs + [rec]) == NewNames(rs) + {rec.newName}
  {
    var rs' := rs + [rec];
    assert rs'[|rs|].newName in NewNames(rs');
    forall x | x in NewNames(rs) ensures x in NewNames(rs') {
      var i :| 0 <= i < |rs| && rs[i].newName == x;
      assert rs'[i].newName == x;
    }
  }

  /** Each renamed file took the first candidate for its ID that was free
      given the names in `existing` and those taken before it. */
  ghost predicate AllFirstFree(rs: seq<Renamed>, existing: set<string>)
  {
    forall i :: 0 <= i < |rs| ==> FirstFree(rs[i].id, existing + NewNames(rs[..i]), rs[i].newName)
  }

  lemma AllFirstFreeSnoc(rs: seq<Renamed>, existing: set<string>, rec: Renamed)
    requires AllFirstFree(rs, existing)
    requires FirstFree(rec.id, existing + NewNames(rs), rec.newName)
    ensures AllFirstFree(rs + [rec], existing)
  {
    var rs' := rs + [rec];
    forall i | 0 <= i < |rs'| ensures FirstFree(rs'[i].id, existing + NewNames(rs'[..i]), rs'[i].newName) {
      if i < |rs| {
        assert rs'[..i] == rs[..i];
      } else {
        assert rs'[..i] == rs;
      }
    }
  }

  /** First-free choices never repeat a name and never reuse an existing
      one. */
  lemma AllFirstFreeDistinct(rs: seq<Renamed>, existing: set<string>)
    requires AllFirstFree(rs, existing)
    ensures forall i, j :: 0 <= i < j < |rs| ==> rs[i].newName != rs[j].newName
    ensures forall i :: 0 <= i < |rs| ==> rs[i].newName !in existing
  {
    forall i, j | 0 <= i < j < |rs| ensures rs[i].newName != rs[j].newName {
      assert rs[j].newName !in existing + NewNames(rs[..j]);
      assert rs[i].newName == rs[..j][i].newName;
    }
    forall i | 0 <= i < |rs| ensures rs[i].newName !in existing {
      assert rs[i].newName !in existing + NewNames(rs[..i]);
    }
  }

  /** Each record's ID and method are those `MatchFile` gives its file. */
  predicate RecordsMatch(rs: seq<Renamed>, l: Lookup)
  {
    forall i :: 0 <= i < |rs| ==> MatchFile(rs[i].original, l) == Some(Match(rs[i].id, rs[i].how))
  }

  /** The body of the loop for one PDF name, given the names `taken` in
      `Matched/`: a record when the file matches an ID, under the first
      free name for that ID. */
  method RenameOne(name: string, l: Lookup, taken: set<string>) returns (r: Option<Renamed>)
    ensures r.Some? <==> IsMatched(l, name)
    ensures r.Some? ==> r.value.original == name
    ensures r.Some? ==> MatchFile(name, l) == Some(Match(r.value.id, r.value.how))
    ensures r.Some? ==> FirstFree(r.value.id, taken, r.value.newName)
  {
    var m := MatchFile(name, l);
    if m.Some? && m.value.id != "" {
      var dest := ChooseDest(m.value.id, taken);
      r := Some(Renamed(name, dest, m.value.id, m.value.how));
    } else {
      r := None;
    }
  }

  /** The matched and unmatched names among the first `k + 1` grow from
      those among the first `k` by the `k`-th name. */
  lemma SplitSnoc(s: seq<string>, k: nat, l: Lookup)
    requires k < |s|
    ensures Seqs.Filter(s[..k + 1], n => IsMatched(l, n)) ==
              Seqs.Filter(s[..k], n => IsMatched(l, n)) + (if IsMatched(l, s[k]) then [s[k]] else [])
    ensures Seqs.Filter(s[..k + 1], n => !IsMatched(l, n)) ==
              Seqs.Filter(s[..k], n => !IsMatched(l, n)) + (if IsMatched(l, s[k]) then [] else [s[k]])
  {
    assert s[..k + 1] == s[..k] + [s[k]];
    FilterSnoc(s[..k], s[k], n => IsMatched(l, n));
    FilterSnoc(s[..k], s[k], n => !IsMatched(l, n));
  }

  /** What the loop of `main` has built after the first `k` names:
      matched and unmatched names split in order, the names taken in
      `Matched/`, and records that agree with the match and took the first
      free name. */
  ghost predicate Progress(sorted: seq<string>, k: nat, l: Lookup, existing: set<string>,
                           renamed: seq<Renamed>, unmatched: seq<string>, taken: set<string>)
  {
    && k <= |sorted|
    && Originals(renamed) == Seqs.Filter(sorted[..k], n => IsMatched(l, n))
    && unmatched == Seqs.Filter(sorted[..k], n => !IsMatched(l, n))
    && |renamed| + |unmatched| == k
    && taken == existing + NewNames(renamed)
    && RecordsMatch(renamed, l)
    && AllFirstFree(renamed, existing)
  }

  /** A matched name adds its record and its new name. */
  lemma ProgressMatched(sorted: seq<string>, k: nat, l: Lookup, existing: set<string>,
                        renamed: seq<Renamed>, unmatched: seq<string>, taken: set<string>, rec: Renamed)
    requires k < |sorted| && Progress(sorted, k, l, existing, renamed, unmatched, taken)
    requires rec.original == sorted[k] && IsMatched(l, sorted[k])
    requires MatchFile(sorted[k], l) == Some(Match(rec.id, rec.how))
    requires FirstFree(rec.id, taken, rec.newName)
    ensures Progress(sorted, k + 1, l, existing, renamed + [rec], unmatched, taken + {rec.newName})
  {
    SplitSnoc(sorted, k, l);
    AllFirstFreeSnoc(renamed, existing, rec);
    NewNamesSnoc(renamed, rec);
    assert Originals(renamed + [rec]) == Originals(renamed) + [sorted[k]];
  }

  /** An unmatched name is listed and nothing else changes. */
  lemma ProgressUnmatched(sorted: seq<string>, k: nat, l: Lookup, existing: set<string>,
                          renamed: seq<Renamed>, unmatched: seq<string>, taken: set<string>)
    requires k < |sorted| && Progress(sorted, k, l, existing, renamed, unmatched, taken)
    requires !IsMatched(l, sorted[k])
    ensures Progress(sorted, k + 1, l, existing, renamed, unmatched + [sorted[k]], taken)
  {
    SplitSnoc(sorted, k, l);
  }

  /** The loop of `main` over the PDF names in the order given; `existing`
      holds the names already present in `Matched/`. Matched files are
      listed in `renamed`, the rest in `unmatched`, both in input order;
      each new name is the first free candidate for its ID given the
      names taken before it. */
  method RenameSorted(sorted: seq<string>, l: Lookup, existing: set<string>)
    returns (renamed: seq<Renamed>, unmatched: seq<string>)
    ensures Originals(renamed) == Seqs.Filter(sorted, n => IsMatched(l, n))
    ensures unmatched == Seqs.Filter(sorted, n => !IsMatched(l, n))
    ensures |renamed| + |unmatched| == |sorted|
    ensures RecordsMatch(renamed, l)
    ensures AllFirstFree(renamed, existing)
  {
    renamed, unmatched := [], [];
    var taken := existing;
    for k := 0 to |sorted|
      invariant Progress(sorted, k, l, existing, renamed, unmatched, taken)
    {
      var r := RenameOne(sorted[k], l, taken);
      if r.Some? {
        ProgressMatched(sorted, k, l, existing, renamed, unmatched, taken, r.value);
        renamed := renamed + [r.value];
        taken := taken + {r.value.newName};
      } else {
        ProgressUnmatched(sorted, k, l, existing, renamed, unmatched, taken);
        unmatched := unmatched + [sorted[k]];
      }
    }
    assert sorted[..|sorted|] == sorted;
  }

  /** `main`'s loop over the PDF names of the source folder, sorted.
      Matched files are listed in `renamed`, the rest in `unmatched`, both
      in sorted order; the new names are first-free, so no two coincide
      and none overwrites an existing file. */
  method RenameAll(files: seq<string>, l: Lookup, existing: set<string>)
    returns (renamed: seq<Renamed>, unmatched: seq<string>)
    ensures Originals(renamed) == Seqs.Filter(SortStrings(files), n => IsMatched(l, n))
    ensures unmatched == Seqs.Filter(SortStrings(files), n => !IsMatched(l, n))
    ensures |renamed| + |unmatched| == |files|
    ensures RecordsMatch(renamed, l)
    ensures AllFirstFree(renamed, existing)
    ensures forall i, j :: 0 <= i < j < |renamed| ==> renamed[i].newName != renamed[j].newName
    ensures forall i :: 0 <= i < |renamed| ==> renamed[i].newName !in existing
  {
    renamed, unmatched := RenameSorted(SortStrings(files), l, existing);
    AllFirstFreeDistinct(renamed, existing);
  }
}

=== FILE: seqs.dfy ===
/** Sequence utilities shared by the scripts: an optional value,
    duplicate-freedom, the index of a first occurrence, filtering, and
    order-preserving de-duplication (Python's `dict.fromkeys(xs)` and the
    `if x not in found: found.append(x)` idiom). */
module Seqs {

  /** Python's `None`-or-value results (`re.search`, `dict.get`). */
  datatype Option<T> = None | Some(value: T)

  predicate NoDup<T(==)>(s: seq<T>)
  {
    forall i, j :: 0 <= i < j < |s| ==> s[i] != s[j]
  }

  /** Python's `s.index(x)`: the position of the first occurrence. */
  function IndexOf<T(==)>(s: seq<T>, x: T): (k: nat)
    requires x in s
    ensures k < |s| && s[k] == x
    ensures forall j :: 0 <= j < k ==> s[j] != x
  {
    if s[0] == x then 0 else 1 + IndexOf(s[1..], x)
  }

  lemma {:induction false} IndexOfAppend<T>(p: seq<T>, y: T)
    ensures forall x :: x in p ==> IndexOf(p + [y], x) == IndexOf(p, x)
    ensures y !in p ==> IndexOf(p + [y], y) == |p|
  {
    forall x | x in p
      ensures IndexOf(p + [y], x) == IndexOf(p, x)
    {
      var k := IndexOf(p, x);
      assert (p + [y])[k] == x;
      assert forall j :: 0 <= j < k ==> (p + [y])[j] != x;
    }
  }

  /** Keeps the elements satisfying `f`, in order. */
  function Filter<T(!new)>(s: seq<T>, f: T -> bool): (r: seq<T>)
    ensures |r| <= |s|
    ensures forall x :: x in r <==> x in s && f(x)
  {
    if |s| == 0 then [] else (if f(s[0]) then [s[0]] else []) + Filter(s[1..], f)
  }

  /** Filtering by a property of the value keeps the relative order of
      first occurrences. */
  lemma {:induction false} FilterIndexOrder<T(!new)>(s: seq<T>, f: T -> bool, a: T, b: T)
    requires a in Filter(s, f) && b in Filter(s, f)
    ensures IndexOf(Filter(s, f), a) < IndexOf(Filter(s, f), b) <==> IndexOf(s, a) < IndexOf(s, b)
  {
    var rest := Filter(s[1..], f);
    if f(s[0]) {
      assert Filter(s, f) == [s[0]] + rest;
      if a != s[0] && b != s[0] {
        FilterIndexOrder(s[1..], f, a, b);
      }
    } else {
      assert Filter(s, f) == rest;
      FilterIndexOrder(s[1..], f, a, b);
    }
  }

  /** Keeps the first occurrence of every element, in order of first
      occurrence. */
  function Dedup<T(==,!new)>(s: seq<T>): (r: seq<T>)
    ensures |r| <= |s|
    ensures NoDup(r)
    ensures forall x :: x in r <==> x in s
    ensures forall i, j :: 0 <= i < j < |r| ==> IndexOf(s, r[i]) < IndexOf(s, r[j])
  {
    if |s| == 0 then []
    else
      var p := s[..|s| - 1];
      var y := s[|s| - 1];
      var d := Dedup(p);
      assert s == p + [y];
      IndexOfAppend(p, y);
      if y in d then d else d + [y]
  }

  /** Python's `s[:n]`. */
  function Take<T>(s: seq<T>, n: nat): (r: seq<T>)
    ensures |r| == if |s| < n then |s| else n
    ensures r == s[..|r|]
  {
    if |s| < n then s else s[..n]
  }

  /** Appending to the input appends to the filtered result. */
  lemma {:induction false} FilterSnoc<T(!new)>(s: seq<T>, x: T, f: T -> bool)
    ensures Filter(s + [x], f) == Filter(s, f) + (if f(x) then [x] else [])
  {
    if |s| > 0 {
      assert (s + [x])[1..] == s[1..] + [x];
      FilterSnoc(s[1..], x, f);
    }
  }

  /** A subset is no larger than its superset. */
  lemma {:induction false} SubsetCardinality<T>(a: set<T>, b: set<T>)
    requires a <= b
    ensures |a| <= |b|
    decreases |a|
  {
    if a != {} {
      var x :| x in a;
      SubsetCardinality(a - {x}, b - {x});
    }
  }

  /** The index of the last element satisfying `p`, or -1 when there is
      none. */
  function LastWhere<T>(s: seq<T>, p: T -> bool): (k: int)
    ensures -1 <= k < |s|
    ensures k == -1 <==> forall i :: 0 <= i < |s| ==> !p(s[i])
    ensures k >= 0 ==> p(s[k]) && forall i :: k < i < |s| ==> !p(s[i])
  {
    if |s| == 0 then -1
    else if p(s[|s| - 1]) then |s| - 1
    else
      var k := LastWhere(s[..|s| - 1], p);
      assert forall i :: 0 <= i < |s| - 1 ==> s[..|s| - 1][i] == s[i];
      k
  }

  /** The blocks `f(x)` of the elements of `xs`, one after the other. */
  function ConcatMap<A(!new), B(!new)>(xs: seq<A>, f: A -> seq<B>): (r: seq<B>)
    ensures forall y :: y in r <==> exists x :: x in xs && y in f(x)
  {
    if |xs| == 0 then [] else
      var rest := ConcatMap(xs[1..], f);
      assert forall x :: x in xs <==> x == xs[0] || x in xs[1..];
      f(xs[0]) + rest
  }

  /** The blocks of two runs are those of the first run followed by those
      of the second. */
  lemma {:induction false} ConcatMapAppend<A(!new), B(!new)>(a: seq<A>, b: seq<A>, f: A -> seq<B>)
    ensures ConcatMap(a + b, f) == ConcatMap(a, f) + ConcatMap(b, f)
  {
    if |a| > 0 {
      assert (a + b)[1..] == a[1..] + b;
      ConcatMapAppend(a[1..], b, f);
    } else {
      assert a + b == b;
    }
  }
}

=== FILE: sorting.dfy ===
/** Python's `list.sort(key=...)` and `sorted(...)` over keys that are
    tuples of strings: a stable ascending sort, modelled as insertion sort. */
module Sorting {
  import opened Strings

  ghost predicate SortedBy<T>(s: seq<T>, key: T -> seq<string>)
  {
    forall i, j :: 0 <= i < j < |s| ==> KeyLe(key(s[i]), key(s[j]))
  }

  /** The elements of `s` whose key is `k`, in order. */
  function WithKey<T>(s: seq<T>, key: T -> seq<string>, k: seq<string>): seq<T>
  {
    if |s| == 0 then [] else (if key(s[0]) == k then [s[0]] else []) + WithKey(s[1..], key, k)
  }

  /** Places `x` before the first element whose key is not smaller. */
  function Insert<T>(x: T, s: seq<T>, key: T -> seq<string>): seq<T>
  {
    if |s| == 0 then [x]
    else if KeyLe(key(x), key(s[0])) then [x] + s
    else [s[0]] + Insert(x, s[1..], key)
  }

  lemma {:induction false} InsertMultiset<T>(x: T, s: seq<T>, key: T -> seq<string>)
    ensures multiset(Insert(x, s, key)) == multiset(s) + multiset{x}
  {
    if |s| > 0 && !KeyLe(key(x), key(s[0])) {
      InsertMultiset(x, s[1..], key);
      assert s == [s[0]] + s[1..];
    }
  }

  lemma {:induction false} InsertSorted<T>(x: T, s: seq<T>, key: T -> seq<string>)
    requires SortedBy(s, key)
    ensures SortedBy(Insert(x, s, key), key)
  {
    if |s| == 0 {
    } else if KeyLe(key(x), key(s[0])) {
      var r := [x] + s;
      forall i, j | 0 <= i < j < |r| ensures KeyLe(key(r[i]), key(r[j])) {
        if i == 0 && j > 1 {
          KeyLeTrans(key(x), key(s[0]), key(s[j - 1]));
        }
      }
    } else {
      KeyLeTotal(key(x), key(s[0]));
      InsertSorted(x, s[1..], key);
      InsertMultiset(x, s[1..], key);
      var tail := Insert(x, s[1..], key);
      var r := [s[0]] + tail;
      forall j | 0 <= j < |tail| ensures KeyLe(key(s[0]), key(tail[j])) {
        assert tail[j] in multiset(tail);
        if tail[j] != x {
          assert tail[j] in multiset(s[1..]);
          var m :| 0 <= m < |s[1..]| && s[1..][m] == tail[j];
          assert s[m + 1] == tail[j];
        }
      }
    }
  }

  lemma {:induction false} InsertWithKey<T>(x: T, s: seq<T>, key: T -> seq<string>, k: seq<string>)
    ensures WithKey(Insert(x, s, key), key, k) == (if key(x) == k then [x] else []) + WithKey(s, key, k)
  {
    if |s| == 0 {
      assert WithKey([x], key, k) == (if key(x) == k then [x] else []) + WithKey([x][1..], key, k);
    } else if KeyLe(key(x), key(s[0])) {
      assert ([x] + s)[1..] == s;
    } else {
      KeyLeRefl(key(x));
      InsertWithKey(x, s[1..], key, k);
      assert ([s[0]] + Insert(x, s[1..], key))[1..] == Insert(x, s[1..], key);
    }
  }

  /** Stable ascending sort by `key`. */
  function SortBy<T>(s: seq<T>, key: T -> seq<string>): (r: seq<T>)
    ensures multiset(r) == multiset(s)
    ensures SortedBy(r, key)
  {
    if |s| == 0 then []
    else
      var rest := SortBy(s[1..], key);
      InsertMultiset(s[0], rest, key);
      InsertSorted(s[0], rest, key);
      assert s == [s[0]] + s[1..];
      Insert(s[0], rest, key)
  }

  /** Stability: among elements with equal keys the input order is kept. */
  lemma {:induction false} SortByStable<T>(s: seq<T>, key: T -> seq<string>, k: seq<string>)
    ensures WithKey(SortBy(s, key), key, k) == WithKey(s, key, k)
  {
    if |s| > 0 {
      SortByStable(s[1..], key, k);
      InsertWithKey(s[0], SortBy(s[1..], key), key, k);
    }
  }

  lemma HeadLeAll<T>(a: seq<T>, key: T -> seq<string>, x: T)
    requires SortedBy(a, key) && x in a
    ensures KeyLe(key(a[0]), key(x))
  {
    var i :| 0 <= i < |a| && a[i] == x;
    if i == 0 {
      KeyLeRefl(key(x));
    }
  }

  lemma MultisetTail<T>(a: seq<T>, b: seq<T>)
    requires |a| > 0 && |b| > 0 && a[0] == b[0]
    requires multiset(a) == multiset(b)
    ensures multiset(a[1..]) == multiset(b[1..])
  {
    assert a == [a[0]] + a[1..] && b == [b[0]] + b[1..];
    assert multiset(a[1..]) == multiset(a) - multiset{a[0]};
    assert multiset(b[1..]) == multiset(b) - multiset{b[0]};
  }

  /** Two sorted arrangements of one multiset agree when the key tells
      elements apart. */
  lemma {:induction false} SortedUnique<T>(a: seq<T>, b: seq<T>, key: T -> seq<string>)
    requires forall x, y :: key(x) == key(y) ==> x == y
    requires SortedBy(a, key) && SortedBy(b, key)
    requires multiset(a) == multiset(b)
    ensures a == b
  {
    if |a| == 0 {
      assert |multiset(b)| == 0;
    } else {
      assert a[0] in multiset(b);
      assert b[0] in multiset(a) by {
        assert |multiset(b)| > 0;
      }
      HeadLeAll(b, key, a[0]);
      HeadLeAll(a, key, b[0]);
      KeyLeAntisym(key(a[0]), key(b[0]));
      assert a[0] == b[0];
      var a', b' := a[1..], b[1..];
      assert a == [a[0]] + a' && b == [b[0]] + b';
      MultisetTail(a, b);
      SortedUnique(a', b', key);
    }
  }

  /** A string as a one-column sort key. */
  function Single(x: string): seq<string>
  {
    [x]
  }

  /** `sorted(xs)` on strings: ascending in code-point order, a permutation
      of the input. */
  function SortStrings(xs: seq<string>): (r: seq<string>)
    ensures multiset(r) == multiset(xs) && |r| == |xs|
    ensures forall i, j :: 0 <= i < j < |r| ==> Le(r[i], r[j])
  {
    var r := SortBy(xs, Single);
    assert |r| == |multiset(r)| == |multiset(xs)| == |xs|;
    assert forall i, j :: 0 <= i < j < |r| ==> Le(r[i], r[j]) by {
      forall i, j | 0 <= i < j < |r| ensures Le(r[i], r[j]) {
        KeyLeSingleton(r[i], r[j]);
      }
    }
    r
  }
}

=== FILE: strings.dfy ===
/** Character and string primitives used by the screening scripts, over
    ASCII: case mapping, Python's whitespace and word-character classes,
    `str.strip`, `str.join`, substring search, code-point lexicographic
    order, and the decimal rendering of naturals that f-strings produce. */
module Strings {

  predicate IsUpperAscii(c: char) { 'A' <= c <= 'Z' }

  predicate IsLowerAscii(c: char) { 'a' <= c <= 'z' }

  predicate IsDigit(c: char) { '0' <= c <= '9' }

  /** Python's `str.isspace` (and `\s`) on ASCII: tab, line feed, vertical
      tab, form feed, carriage return, the separators 0x1C-0x1F and space. */
  predicate IsSpace(c: char) { 9 <= c as int <= 13 || 28 <= c as int <= 32 }

  /** Python's `\w` on ASCII. */
  predicate IsWordChar(c: char) { IsUpperAscii(c) || IsLowerAscii(c) || IsDigit(c) || c == '_' }

  function LowerChar(c: char): char
  {
    if IsUpperAscii(c) then (c as int + 32) as char else c
  }

  function UpperChar(c: char): char
  {
    if IsLowerAscii(c) then (c as int - 32) as char else c
  }

  /** `str.lower()`; only A-Z change, so the length never changes and match
      positions found in the lowered text index the original. */
  function Lower(s: string): (r: string)
    ensures |r| == |s|
    ensures forall i :: 0 <= i < |s| ==> r[i] == LowerChar(s[i])
  {
    seq(|s|, i requires 0 <= i < |s| => LowerChar(s[i]))
  }

  /** `str.upper()` on ASCII. */
  function Upper(s: string): (r: string)
    ensures |r| == |s|
    ensures forall i :: 0 <= i < |s| ==> r[i] == UpperChar(s[i])
  {
    seq(|s|, i requires 0 <= i < |s| => UpperChar(s[i]))
  }

  predicate IsLowercase(s: string) { forall i :: 0 <= i < |s| ==> !IsUpperAscii(s[i]) }

  lemma LowerIsLowercase(s: string)
    ensures IsLowercase(Lower(s))
    ensures Lower(Lower(s)) == Lower(s)
  {
  }

  lemma LowerSlice(s: string, i: nat, j: nat)
    requires i <= j <= |s|
    ensures Lower(s[i..j]) == Lower(s)[i..j]
  {
  }

  predicate StartsWith(s: string, prefix: string)
  {
    |prefix| <= |s| && s[..|prefix|] == prefix
  }

  predicate EndsWith(s: string, suffix: string)
  {
    |suffix| <= |s| && s[|s| - |suffix|..] == suffix
  }

  /** `sub` occurs in `s` starting at index `i`. */
  predicate OccursAt(sub: string, s: string, i: nat)
  {
    i + |sub| <= |s| && s[i..i + |sub|] == sub
  }

  /** In `x + m + y`, `x` is a prefix, `y` a suffix, and `m` stands at
      `|x|`. */
  lemma MiddleOccurs(x: string, m: string, y: string)
    ensures StartsWith(x + m + y, x) && EndsWith(x + m + y, y)
    ensures OccursAt(m, x + m + y, |x|)
  {
    var r := x + m + y;
    assert r[..|x|] == x;
    assert r[|r| - |y|..] == y;
    assert r[|x|..|x| + |m|] == m;
  }

  /** Declarative substring relation. */
  ghost predicate Contains(s: string, sub: string)
  {
    exists i: nat :: OccursAt(sub, s, i)
  }

  function ContainsFrom(s: string, sub: string, i: nat): bool
    decreases |s| - i
  {
    if i + |sub| > |s| then false
    else if s[i..i + |sub|] == sub then true
    else ContainsFrom(s, sub, i + 1)
  }

  lemma {:induction false} ContainsFromCorrect(s: string, sub: string, i: nat)
    ensures ContainsFrom(s, sub, i) <==> exists j: nat :: i <= j && OccursAt(sub, s, j)
    decreases |s| - i
  {
    if i + |sub| > |s| {
      assert forall j: nat :: i <= j ==> !OccursAt(sub, s, j);
    } else if s[i..i + |sub|] == sub {
      assert OccursAt(sub, s, i);
    } else {
      ContainsFromCorrect(s, sub, i + 1);
      assert !OccursAt(sub, s, i);
      assert forall j: nat :: i <= j && OccursAt(sub, s, j) ==> i + 1 <= j;
    }
  }

  /** Python's `sub in s`: true exactly when `sub` occurs somewhere in `s`
      (always, for the empty `sub`). */
  function InStr(sub: string, s: string): (b: bool)
    ensures b <==> Contains(s, sub)
  {
    ContainsFromCorrect(s, sub, 0);
    ContainsFrom(s, sub, 0)
  }

  /** The number of whitespace characters `str.lstrip` removes. */
  function LeadingSpaces(s: string): (n: nat)
    ensures n <= |s|
    ensures forall i :: 0 <= i < n ==> IsSpace(s[i])
    ensures n < |s| ==> !IsSpace(s[n])
  {
    if |s| > 0 && IsSpace(s[0]) then 1 + LeadingSpaces(s[1..]) else 0
  }

  /** The number of whitespace characters `str.rstrip` removes. */
  function TrailingSpaces(s: string): (n: nat)
    ensures n <= |s|
    ensures forall i :: |s| - n <= i < |s| ==> IsSpace(s[i])
    ensures n < |s| ==> !IsSpace(s[|s| - n - 1])
  {
    if |s| > 0 && IsSpace(s[|s| - 1]) then 1 + TrailingSpaces(s[..|s| - 1]) else 0
  }

  /** `r` is `s` with exactly its leading and trailing whitespace removed:
      it stands at `lo`, everything before and after it is whitespace, and
      it neither starts nor ends with whitespace. */
  predicate StrippedAt(s: string, r: string, lo: nat)
  {
    && OccursAt(r, s, lo)
    && (forall i :: 0 <= i < lo ==> IsSpace(s[i]))
    && (forall i :: lo + |r| <= i < |s| ==> IsSpace(s[i]))
    && (|r| > 0 ==> !IsSpace(r[0]) && !IsSpace(r[|r| - 1]))
  }

  /** `str.strip()`: the contiguous middle of `s` left once leading and
      trailing whitespace are removed. */
  function Strip(s: string): (r: string)
    ensures exists lo: nat :: StrippedAt(s, r, lo)
    ensures r == [] <==> forall i :: 0 <= i < |s| ==> IsSpace(s[i])
  {
    var lo := LeadingSpaces(s);
    var t := s[lo..];
    var n := TrailingSpaces(t);
    var r := t[..|t| - n];
    assert OccursAt(r, s, lo);
    assert forall i :: lo + |r| <= i < |s| ==> IsSpace(s[i]) by {
      forall i | lo + |r| <= i < |s| ensures IsSpace(s[i]) {
        assert s[i] == t[i - lo];
      }
    }
    assert r == [] ==> lo == |s| by {
      if r == [] && lo < |s| {
        assert false;
      }
    }
    assert StrippedAt(s, r, lo);
    r
  }

  /** Only one string is `s` stripped: any `r` with the strip shape is
      `Strip(s)`. */
  lemma {:induction false} StripUnique(s: string, r: string, lo: nat)
    requires StrippedAt(s, r, lo)
    ensures r == Strip(s)
  {
    var r' := Strip(s);
    var lo' :| StrippedAt(s, r', lo');
    if |r| > 0 {
      OccursAtIndex(r, s, lo, 0);
      OccursAtIndex(r, s, lo, |r| - 1);
    }
    if |r'| > 0 {
      OccursAtIndex(r', s, lo', 0);
      OccursAtIndex(r', s, lo', |r'| - 1);
    }
    if |r| > 0 && |r'| > 0 {
      assert lo == lo';
      assert |r| == |r'|;
    }
  }

  lemma OccursAtIndex(sub: string, s: string, i: nat, k: nat)
    requires OccursAt(sub, s, i) && k < |sub|
    ensures i + k < |s| && s[i + k] == sub[k]
  {
    assert s[i..i + |sub|][k] == s[i + k];
  }

  /** Python's `sep.join(xs)`. */
  function Join(xs: seq<string>, sep: string): (r: string)
    ensures |xs| == 0 ==> r == ""
    ensures |xs| == 1 ==> r == xs[0]
    ensures |xs| > 0 ==> StartsWith(r, xs[0]) && EndsWith(r, xs[|xs| - 1])
  {
    if |xs| == 0 then "" else if |xs| == 1 then xs[0] else
      var rest := Join(xs[1..], sep);
      assert (xs[0] + sep + rest)[..|xs[0]|] == xs[0];
      assert (xs[0] + sep + rest)[|xs[0]| + |sep|..] == rest;
      xs[0] + sep + rest
  }

  /** Joining one more piece appends the separator and that piece: with
      `Join([x], sep) == x`, this fixes the joined string from the left,
      independently of the definition's split at the head. */
  lemma {:induction false} JoinSnoc(xs: seq<string>, y: string, sep: string)
    requires |xs| > 0
    ensures Join(xs + [y], sep) == Join(xs, sep) + sep + y
  {
    if |xs| == 1 {
      assert xs + [y] == [xs[0], y];
      assert [xs[0], y][1..] == [y];
    } else {
      assert (xs + [y])[1..] == xs[1..] + [y];
      JoinSnoc(xs[1..], y, sep);
    }
  }

  /** Every joined piece occurs in the joined string. */
  lemma {:induction false} JoinContainsPiece(xs: seq<string>, sep: string, k: nat)
    requires k < |xs|
    ensures Contains(Join(xs, sep), xs[k])
  {
    if |xs| == 1 {
      assert OccursAt(xs[0], Join(xs, sep), 0);
    } else if k == 0 {
      assert OccursAt(xs[0], Join(xs, sep), 0);
    } else {
      JoinContainsPiece(xs[1..], sep, k - 1);
      var rest := Join(xs[1..], sep);
      var i: nat :| OccursAt(xs[k], rest, i);
      var off := |xs[0]| + |sep|;
      assert Join(xs, sep) == xs[0] + sep + rest;
      assert Join(xs, sep)[off + i..off + i + |xs[k]|] == rest[i..i + |xs[k]|];
      assert OccursAt(xs[k], Join(xs, sep), off + i);
    }
  }

  // ---------------------------------------------------------------------
  // Code-point lexicographic order (Python's `<` on str and on tuples)
  // ---------------------------------------------------------------------

  /** Python's `a <= b` on strings. */
  predicate Le(a: string, b: string)
  {
    |a| == 0 || (|b| > 0 && (a[0] < b[0] || (a[0] == b[0] && Le(a[1..], b[1..]))))
  }

  predicate Lt(a: string, b: string) { Le(a, b) && a != b }

  lemma {:induction false} LeRefl(a: string)
    ensures Le(a, a)
  {
    if |a| > 0 {
      LeRefl(a[1..]);
    }
  }

  lemma {:induction false} LeAntisym(a: string, b: string)
    requires Le(a, b) && Le(b, a)
    ensures a == b
  {
    if |a| > 0 && |b| > 0 {
      LeAntisym(a[1..], b[1..]);
      assert a == [a[0]] + a[1..] && b == [b[0]] + b[1..];
    }
  }

  lemma {:induction false} LeTrans(a: string, b: string, c: string)
    requires Le(a, b) && Le(b, c)
    ensures Le(a, c)
  {
    if |a| > 0 && |b| > 0 && |c| > 0 && a[0] == b[0] == c[0] {
      LeTrans(a[1..], b[1..], c[1..]);
    }
  }

  lemma {:induction false} LeTotal(a: string, b: string)
    ensures Le(a, b) || Le(b, a)
  {
    if |a| > 0 && |b| > 0 && a[0] == b[0] {
      LeTotal(a[1..], b[1..]);
    }
  }

  /** Python's `<=` on equal-length tuples of strings, such as the sort key
      `(Year, pdf_name, keyword)`. */
  predicate KeyLe(a: seq<string>, b: seq<string>)
  {
    |a| == 0 || (|b| > 0 && (Lt(a[0], b[0]) || (a[0] == b[0] && KeyLe(a[1..], b[1..]))))
  }

  lemma {:induction false} KeyLeRefl(a: seq<string>)
    ensures KeyLe(a, a)
  {
    if |a| > 0 {
      KeyLeRefl(a[1..]);
    }
  }

  lemma {:induction false} KeyLeAntisym(a: seq<string>, b: seq<string>)
    requires KeyLe(a, b) && KeyLe(b, a)
    ensures a == b
  {
    if |a| > 0 && |b| > 0 {
      if Lt(a[0], b[0]) && Lt(b[0], a[0]) {
        LeAntisym(a[0], b[0]);
      }
      KeyLeAntisym(a[1..], b[1..]);
      assert a == [a[0]] + a[1..] && b == [b[0]] + b[1..];
    }
  }

  lemma {:induction false} KeyLeTrans(a: seq<string>, b: seq<string>, c: seq<string>)
    requires KeyLe(a, b) && KeyLe(b, c)
    ensures KeyLe(a, c)
  {
    if |a| > 0 && |b| > 0 && |c| > 0 {
      if Lt(a[0], b[0]) && Lt(b[0], c[0]) {
        LeTrans(a[0], b[0], c[0]);
        if a[0] == c[0] {
          LeAntisym(a[0], b[0]);
        }
      } else if a[0] == b[0] && b[0] == c[0] {
        KeyLeTrans(a[1..], b[1..], c[1..]);
      }
    }
  }

  lemma {:induction false} KeyLeTotal(a: seq<string>, b: seq<string>)
    ensures KeyLe(a, b) || KeyLe(b, a)
  {
    if |a| > 0 && |b| > 0 {
      LeTotal(a[0], b[0]);
      if a[0] == b[0] {
        KeyLeTotal(a[1..], b[1..]);
      }
    }
  }

  lemma KeyLeSingleton(a: string, b: string)
    ensures KeyLe([a], [b]) <==> Le(a, b)
  {
    assert [a][1..] == [] && [b][1..] == [];
    LeRefl(a);
  }

  // ---------------------------------------------------------------------
  // Decimal rendering of naturals (Python's `str(n)` / f"{n}")
  // ---------------------------------------------------------------------

  function DigitChar(d: nat): char
    requires d < 10
  {
    ('0' as int + d) as char
  }

  function DigitValue(c: char): nat
    requires IsDigit(c)
  {
    c as int - '0' as int
  }

  /** `str(n)` for a non-negative int: decimal, no leading zeros. */
  function NatToString(n: nat): (r: string)
    ensures |r| > 0
    ensures forall i :: 0 <= i < |r| ==> IsDigit(r[i])
  {
    if n < 10 then [DigitChar(n)] else NatToString(n / 10) + [DigitChar(n % 10)]
  }

  /** Reads a string of decimal digits back as a natural. */
  function ParseNat(s: string): nat
    requires forall i :: 0 <= i < |s| ==> IsDigit(s[i])
  {
    if |s| == 0 then 0 else 10 * ParseNat(s[..|s| - 1]) + DigitValue(s[|s| - 1])
  }

  lemma {:induction false} ParseNatToString(n: nat)
    ensures ParseNat(NatToString(n)) == n
  {
    var r := NatToString(n);
    if n >= 10 {
      ParseNatToString(n / 10);
      assert r[..|r| - 1] == NatToString(n / 10);
    }
  }

  lemma NatToStringInjective(a: nat, b: nat)
    requires NatToString(a) == NatToString(b)
    ensures a == b
  {
    ParseNatToString(a);
    ParseNatToString(b);
  }
}
